=== FILE: README.md ===
# headless-press-api: the article/comment data layer in Dafny

This project models the data-access core of a news REST API: topics, users,
articles and comments held in four PostgreSQL tables. It models the article
accessors, the generic existence guard and the error-translation middleware.
It also models the constraints the table definitions declare and the pure
helpers used to shape seed data.

The relational store is an immutable value (`Schema.Store`). It holds one
sequence of rows per table and the next value of each `SERIAL` sequence.
Every SQL statement is a pure function over that value:

- A read returns a `Result`: `Ok(value)` or `Fail(error)`.
- A write returns a `Step`: the store afterwards together with the `Result`.

A rejection (`Results.Error`) is either a structured `{status, msg}` object
built by the accessors, or a database error identified by its SQLSTATE code
(Appendix A of the PostgreSQL documentation).

Modules, following the program's structure:

- `Results`, `Decimal`, `Js`: rejections, decimal numerals, JavaScript values and truthiness.
- `SqlInt`: how the database binds a text route parameter to an `INT` column.
- `Seqs`, `Ordering`: `WHERE` selection, and `ORDER BY` as an insertion sort proved to give a sorted permutation.
- `Schema`, `Catalog`: the tables, their constraints (`WellFormed`), and the row inserts that enforce them.
- `CheckExists`: `db/check-exists.js`.
- `ArticleQueries`: `models/articles.models.js`.
- `ErrorChain`: the fallback and error handlers of `app.js`.
- `SeedUtils`: `db/seeds/utils.js`.
- `Endpoints`: accessor rejections followed through the error chain to what the client sees.

The following are parameters of the model:

- the clock (`now`, the value of `CURRENT_TIMESTAMP`);
- the date-to-ISO conversion (`toIsoString`).

Route parameters such as `:article_id` are text. The database converts them
to `int4`. Every text parameter, route, query or body, first passes the
encoding check, which rejects a NUL character with 22021; no handler
recognises that code, so the client sees 500. Then, for an `int4` column:

- text that is not an integer literal is rejected with 22P02, which the client sees as 400 "Bad Request";
- a numeral outside the 32-bit range is rejected with 22003, which no handler recognises, so the client sees 500.

A failed `INSERT` still uses up the `SERIAL` value it drew, because sequences
are never rolled back. When `insertComment` fails while the statement runs
(23502 for a NULL, 23503 for a missing article or user), every table is
unchanged but `nextCommentId` has advanced. When a parameter does not bind
(22021 for a NUL, 22P02 or 22003 for the id), the statement never runs and
nothing changes.

Two behaviours of the code worth knowing:

- `body` is allow-listed, but sorting by it fails with 500 (see Findings).
- A numeral outside int4 gets 500, not the 400 that a non-numeric id gets, since 22003 is not one of the handled codes (`Endpoints.OutOfRangeIdIsServerError`).

## Model

| member | source | states |
|---|---|---|
| `SqlInt.BindText` | db/check-exists.js:5-6 | A text parameter binds unchanged exactly when it holds no NUL, and otherwise fails with 22021. |
| `SqlInt.BindInt4` | models/articles.models.js:58-61 | A bound id is always a 32-bit integer; binding fails only with 22021 (a NUL, checked first), 22P02 (not a literal) or 22003 (out of range). |
| `SqlInt.BindShownInt` | models/articles.models.js:58-61 | Every integer written in decimal binds to itself when it fits in int4, and to 22003 otherwise. |
| `SqlInt.NonNumericRejected` | __tests__/app.test.js:118-125 | Text containing a character other than a digit or a leading sign is rejected with 22P02, or with 22021 when that character is NUL. |
| `Ordering.SortBy` | models/articles.models.js:37 | `ORDER BY` yields a permutation (same multiset) of its input, sorted by the key in the given direction. |
| `Schema.EmptyStoreWellFormed` | db/seeds/seed.js:19-65 | Freshly created tables satisfy every declared constraint. |
| `Schema.StoredUrl` | db/seeds/seed.js:24 | Assigning to `VARCHAR(1000)` succeeds exactly when every character past 1000 is a space. A value within the limit is stored unchanged; a longer one is cut to exactly its first 1000 characters, so only spaces are dropped. Otherwise the error is 22001. |
| `Schema.PaddedUrlIsCut` | db/seeds/seed.js:47 | A 1000-character URL followed by one space is stored without the space. |
| `Schema.InsertUserRow` | db/seeds/seed.js:21-25 | A user row is added exactly when username and name are non-null, the avatar URL can be stored in `VARCHAR(1000)` and the username is new. The row holds the URL as stored. Otherwise the store is unchanged. |
| `Schema.InsertTopicRow` | db/seeds/seed.js:30-34 | A topic row is added exactly when slug and description are non-null, the image URL can be stored and the slug is new. The row holds the URL as stored. Otherwise the store is unchanged. |
| `Schema.InsertArticleRow` | db/seeds/seed.js:39-50 | An article is added exactly when its NOT NULL columns are present, its votes fit int4, its URL can be stored, its topic and author exist, and the id drawn from the sequence is unused (always so in a well-formed store). The row holds the given title, topic, author and body, the next serial id and the URL as stored, with votes 0 and `created_at` now by default. A failed insert changes no table. |
| `Schema.InsertCommentRow` | db/seeds/seed.js:55-64 | A comment is added exactly when article, body and author are present, the article and author exist, votes fit, and the id drawn from the sequence is unused (always so in a well-formed store). The row holds the given article, body and author and the next serial id, with votes 0 and `created_at` now by default. A failed insert changes no table. |
| `Schema.InsertUserRowKeepsWellFormed` | db/seeds/seed.js:21-25 | Inserting a user keeps keys unique, foreign keys resolved, serials issued and columns in range. |
| `Schema.InsertTopicRowKeepsWellFormed` | db/seeds/seed.js:30-34 | Inserting a topic keeps every table constraint. |
| `Schema.InsertArticleRowKeepsWellFormed` | db/seeds/seed.js:39-50 | Inserting an article keeps every table constraint. |
| `Schema.InsertCommentRowKeepsWellFormed` | db/seeds/seed.js:55-64 | Inserting a comment keeps every table constraint. |
| `CheckExists.CheckExists` | db/check-exists.js:4-11 | The guard rejects an unknown column with 42703, and a value holding NUL with 22021. Once the value binds, its only rejection is 404 "Resource not found", the same for every table and column. |
| `CheckExists.ArticleCheck` | db/check-exists.js:6-10 | On `articles.article_id` the guard propagates the int4 binding error; it then succeeds exactly when some article has the id, however many do, and is otherwise 404. |
| `CheckExists.TopicCheck` | db/check-exists.js:6-10 | On `topics.slug` a slug holding NUL fails with 22021; otherwise the guard succeeds exactly when some topic has the slug, and is 404 "Resource not found" when none has. |
| `ArticleQueries.CommentCountCountsComments` | models/articles.models.js:27-29 | `comment_count` equals the number of comments whose `article_id` is the article's (0 when none). |
| `ArticleQueries.SelectArticles` | models/articles.models.js:4-49 | An invalid `sort_by` (default `created_at`) is 400 "Invalid sort_by column" whatever the store and `order`. Then an invalid `order` (default `desc`) is 400 "Invalid order". A topic holding NUL then fails with 22021. A filtered listing holds only rows of that topic. |
| `ArticleQueries.ListingContents` | models/articles.models.js:24-48 | For an existing topic (or none), a valid listing is exactly the articles the topic filter keeps, each as often as stored, sorted by `sort_by`/`order`. Each row has no body and counts the article's comments. |
| `ArticleQueries.UnfilteredListingHasEveryArticle` | models/articles.models.js:32-35 | Without a topic, or with the empty string, every article is listed once and the list has one row per stored article. |
| `ArticleQueries.UnknownTopicIsNotFound` | models/articles.models.js:42-45 | A non-empty topic that no topic row has gives 404 "Resource not found", never a list; 22021 if the topic holds NUL. |
| `ArticleQueries.TopicWithoutArticlesIsEmpty` | models/articles.models.js:32-45 | An existing topic (holding no NUL) that no article has gives the empty list. |
| `ArticleQueries.SelectArticleById` | models/articles.models.js:51-69 | Succeeds exactly when the id binds and an article has it. The result is that full stored row, body included, with its comment count. Otherwise the result is 404 "Article not found" or the binding error. |
| `ArticleQueries.UpdateArticle` | models/articles.models.js:71-88 | For an existing id the update succeeds exactly when the new total fits int4, and otherwise fails with 22003. On success the stored and returned row has votes increased by `inc_votes` with no floor. No other field, article or table changes. An unknown id is 404 "Article not found", an `inc_votes` outside int4 is 22003, and any failure leaves the store unchanged. |
| `ArticleQueries.UpdateArticleKeepsWellFormed` | models/articles.models.js:71-88 | A vote update keeps every table constraint. |
| `ArticleQueries.SelectCommentsByArticleId` | models/articles.models.js:90-104 | The guard runs first, so an unknown article is 404 "Resource not found". For a known article the result is exactly its comments, newest first (`[]` when none). |
| `ArticleQueries.InsertComment` | models/articles.models.js:106-119 | On success exactly one comment is appended and returned, with the given article, author and body, votes 0, created now and the next serial id. A username or body holding NUL is 22021 with the store unchanged. Otherwise a missing field is 23502, and over a well-formed store an unknown article or user is 23503. A failure changes no table. |
| `ArticleQueries.InsertedCommentIdIsFresh` | db/seeds/seed.js:56-62 | A new comment's id is not the id of any existing comment. |
| `ArticleQueries.InsertCommentKeepsWellFormed` | db/seeds/seed.js:55-64 | Posting a comment keeps every table constraint, the foreign keys included. |
| `ArticleQueries.CountIsLengthOfCommentList` | models/articles.models.js:55-59 | An article's `comment_count` equals the length of its comment list. |
| `ArticleQueries.InsertRaisesCount` | models/articles.models.js:106-119 | The count is recomputed, not cached: a posted comment raises its article's count by one. |
| `ArticleQueries.UpdateThenSelect` | models/articles.models.js:71-88 | Reading an article back after a vote update gives the updated row with an unchanged comment count. |
| `ArticleQueries.ResolveOrderBy` | models/articles.models.js:26-37 | An output column of the listing query is always a valid `ORDER BY` name. |
| `ArticleQueries.SelectArticlesAsWritten` | models/articles.models.js:4-49 | The query as written agrees with the corrected listing for every `sort_by` but `body`. |
| `ArticleQueries.SortByBodyFailsAsWritten` | models/articles.models.js:10-37 | As written, `sort_by=body` always fails with 42702 (ambiguous column). |
| `ArticleQueries.SortByBodyOrdersByArticleBody` | models/articles.models.js:10-37 | Corrected, `sort_by=body` lists every article ordered by its body text. |
| `ErrorChain.HandleError` | app.js:57-82 | The chain is total and its answer always has a truthy status and message. The message is a fixed text or the error's own `msg`. The three codes 22P02, 23502 and 23503 take precedence over `{status,msg}`. |
| `ErrorChain.UnknownCodeResponse` | app.js:70-82 | With no known code, a truthy status and msg are echoed back exactly. A zero status or an empty or missing msg gives 500 "Internal Server Error". |
| `ErrorChain.ResponseDependsOnThreeFields` | app.js:58-82 | No field of the error other than `code`, `status` and `msg` influences the response. |
| `ErrorChain.AnswerByKind` | app.js:58-82 | 22P02 is 400 "Bad Request", 23502 is 400 "Missing required field", 23503 is 404 "Referenced entity not found". Any other database code is 500. A structured error is answered as itself. |
| `ErrorChain.Finish` | app.js:52-55 | A request no route matched gets 404 "Path not found"; a raised error always gets a truthy status and message. |
| `SeedUtils.MapToNestedArray` | db/seeds/utils.js:2-12 | One row per object in input order. Row i has one entry per property, and entry j is `objects[i][properties[j]]`. |
| `SeedUtils.ConvertDateToIsoString` | db/seeds/utils.js:15-22 | A falsy `created_at` is dropped; a truthy one is replaced by its conversion. Every other property is kept unchanged. |
| `SeedUtils.CreateLookupMap` | db/seeds/utils.js:25-30 | Every entry of the lookup is the key and value of some input object, and `__proto__` never becomes an own key. |
| `SeedUtils.LookupKeys` | db/seeds/utils.js:25-30 | The lookup's keys are exactly the objects' key values (empty input gives an empty map), except `__proto__`. |
| `SeedUtils.LookupLastWins` | db/seeds/utils.js:25-30 | For duplicate keys the value of the last such object is kept. |
| `Endpoints.NonNumericIdIsBadRequest` | __tests__/app.test.js:118-125 | A non-numeric article id answers 400 "Bad Request" for the article and for its comments, or 500 when it holds NUL. |
| `Endpoints.UnknownArticleIsNotFound` | __tests__/app.test.js:109-116 | A well-formed unknown id answers 404 "Article not found", and its comment list answers 404 "Resource not found". |
| `Endpoints.OutOfRangeIdIsServerError` | app.js:58-82 | A numeric id outside int4 answers 500. |
| `Endpoints.MissingFieldIsBadRequest` | __tests__/app.test.js:174-183 | Posting a comment without body or username answers 400 "Missing required field", or 500 when the field given holds NUL. |
| `Endpoints.UnknownReferenceIsNotFound` | app.js:63-64 | Posting to an unknown article or as an unknown user answers 404 "Referenced entity not found", or 500 when the username or body holds NUL. |
| `Endpoints.UnknownTopicAnswer` | __tests__/app.test.js:88-95 | Filtering on an unknown topic answers 404 "Resource not found", or 500 when the topic holds NUL. |
| `Endpoints.NulInCommentIsServerError` | models/articles.models.js:106-115 | A comment body holding NUL answers 500 and leaves the store, serials included, unchanged. |
| `Endpoints.SortByBodyAnswerAsWritten` | models/articles.models.js:37 | As written, `sort_by=body` answers 500 "Internal Server Error". |

## Findings

| source | as written | input that shows it | evidently intended | confidence | as-written member | corrected member |
|---|---|---|---|---|---|---|
| models/articles.models.js:37 | `ORDER BY ${sort_by}` with `sort_by = "body"`. `body` is allow-listed but is not in the select list. Both `articles` and `comments` have a `body` column after the left join, so PostgreSQL rejects the name as ambiguous (42702), and the client gets 500. | `GET /api/articles?sort_by=body` | order the listing by `articles.body` | high; not executed | `ArticleQueries.SelectArticlesAsWritten` (`ArticleQueries.SortByBodyFailsAsWritten`) | `ArticleQueries.SelectArticles` (`ArticleQueries.SortByBodyOrdersByArticleBody`) |

The allow-list at models/articles.models.js:5-14 names `body` as a sortable
column, so the evident intention is a sorted listing. The rest of the model
uses `SelectArticles`, which sorts by `articles.body`.

## Left out

- Express wiring (app.js:1-48): CORS, JSON parsing, static files, the `/api` document and the route table. Only the fallback and the error chain are modelled.
- Controllers, the topics/users/comments models and `DELETE /api/comments/:id` are not part of this model. The model assumes a handler forwards a rejection to `next` unchanged. Parsing `inc_votes` is left out, so it arrives as a safe JavaScript integer, sent as its decimal numeral.
- The connection, SQL text and `pg-format` identifier quoting. Statement semantics are modelled instead; the allow-list stands for the injection defence.
- Concurrency: the topic check and the listing query run one after the other. If both reject (only possible as written, with `sort_by=body` and an unknown topic), the model takes the query's error. In the program, whichever rejection settles first wins. Torn reads and racing vote updates are not modelled.
- Dates: `created_at` is an integer and the ISO conversion is a parameter. The `RangeError` for an invalid date is not modelled, and neither is the key order of the converted object. Binding text to a timestamp column in the existence guard reads an integer.
- Text ordering is code-point order (the "C" collation); a locale collation may order text differently.
- Integer literals: PostgreSQL also accepts surrounding whitespace and, in recent versions, underscores and non-decimal prefixes. The model rejects these with 22P02.
- JavaScript numbers are safe integers only (magnitude up to 2^53 - 1): no fractions, NaN, or the larger doubles whose `String` form rounds or uses an exponent (`1e+21`), so property keys made from such numbers are not modelled. An error status that is not a valid HTTP code is not modelled: Express would throw on it.
- `SERIAL` sequence exhaustion at 2^31-1 is not modelled.
- `votes` and `created_at` are modelled as never NULL, though db/seeds/seed.js:45-46 and :59-61 declare them nullable. Explicit NULL votes and `votes + NULL` are not modelled. Nor is a NULL `created_at`, which `ORDER BY created_at DESC` would put first in the default listing (models/articles.models.js:4, :37) and in the comment listing (:98).
- `GROUP BY articles.article_id` merging duplicate ids cannot happen under the primary key. Over a store without that key, the model lists each row on its own.
- `console.log` in app.js:80; the DROP/CREATE execution in db/seeds/seed.js:9-65; db/data/development-data/index.js (data re-exports and an unused function).
- Js.Get: objects are read by their own properties only. Names inherited from `Object.prototype` (`toString`, `constructor`, `__proto__`) read as `undefined` in the model, whereas `o[k]` in db/seeds/utils.js:8 and :27 would find the inherited value. The seed data never uses such names.
- `structuredClone` in db/seeds/utils.js:3: the model's values are immutable, so the input cannot change.

=== FILE: article_queries.dfy ===
/** The article and comment accessors, each a statement over the store.

    Reads are functions of the store; writes return the store afterwards
    together with the settled result. Route parameters (`article_id`)
    arrive as text and are bound to int4 by the database.
 */
module ArticleQueries {
  import opened Results
  import opened SqlInt
  import opened Seqs
  import opened Ordering
  import opened Schema
  import opened Catalog
  import CheckExists
  import Js

  /** The columns a listing may be sorted by: the query interpolates the
      name into `ORDER BY`, so it must be one of these. */
  const VALID_SORT_COLUMNS: seq<string> :=
    ["article_id", "title", "topic", "author", "body", "created_at", "votes", "comment_count"]
  const VALID_ORDERS: seq<string> := ["asc", "desc"]
  const DEFAULT_SORT_BY := "created_at"
  const DEFAULT_ORDER := "desc"

  const INVALID_SORT_BY := Api(400, "Invalid sort_by column")
  const INVALID_ORDER := Api(400, "Invalid order")
  const ARTICLE_NOT_FOUND := Api(404, "Article not found")

  /** A row of the listing: every article column but `body`, plus the count. */
  datatype ListedArticle = ListedArticle(
    author: string,
    title: string,
    articleId: int,
    topic: string,
    createdAt: int,
    votes: int,
    articleImgUrl: Option<string>,
    commentCount: nat)

  /** `articles.*` plus the count. */
  datatype ArticleWithCount = ArticleWithCount(article: Article, commentCount: nat)

  function OnArticle(articleId: int): Comment -> bool {
    (c: Comment) => c.articleId == articleId
  }

  function TopicIs(slug: string): Article -> bool {
    (a: Article) => a.topic == slug
  }

  function IdIs(articleId: int): Article -> bool {
    (a: Article) => a.articleId == articleId
  }

  /** `COUNT(comments.comment_id)` over the comments the left join attaches
      to an article: zero when there are none. */
  function CommentCount(comments: seq<Comment>, articleId: int): nat
    decreases |comments|
  {
    if |comments| == 0 then 0
    else (if comments[0].articleId == articleId then 1 else 0) + CommentCount(comments[1..], articleId)
  }

  /** The count is the number of comments whose `article_id` is the article's. */
  lemma {:induction false} CommentCountCountsComments(comments: seq<Comment>, articleId: int)
    ensures CommentCount(comments, articleId) == |Filter(comments, OnArticle(articleId))|
    decreases |comments|
  {
    if |comments| != 0 {
      CommentCountCountsComments(comments[1..], articleId);
    }
  }

  // ----- GET /api/articles -----------------------------------------------

  /** JavaScript `if (topic)` on a query parameter that is a string or absent. */
  predicate FiltersOnTopic(topic: Option<string>) {
    topic.Some? && topic.value != ""
  }

  /** The rows the `WHERE` clause keeps. */
  function Candidates(s: Store, topic: Option<string>): seq<Article> {
    if FiltersOnTopic(topic) then Filter(s.articles, TopicIs(topic.value)) else s.articles
  }

  /** The value `ORDER BY column` compares for an article. */
  function SortKey(s: Store, column: string, a: Article): Key {
    if column == "article_id" then IntKey(a.articleId)
    else if column == "title" then TextKey(a.title)
    else if column == "topic" then TextKey(a.topic)
    else if column == "author" then TextKey(a.author)
    else if column == "body" then TextKey(a.body)
    else if column == "created_at" then IntKey(a.createdAt)
    else if column == "votes" then IntKey(a.votes)
    else if column == "comment_count" then IntKey(CommentCount(s.comments, a.articleId))
    else IntKey(0) // not reached: the column is validated first
  }

  function SortKeyOf(s: Store, column: string): Article -> Key {
    (a: Article) => SortKey(s, column, a)
  }

  function DirectionOf(order: string): Direction {
    if order == "asc" then Asc else Desc
  }

  function Listed(s: Store, a: Article): ListedArticle {
    ListedArticle(a.author, a.title, a.articleId, a.topic, a.createdAt, a.votes, a.articleImgUrl,
                  CommentCount(s.comments, a.articleId))
  }

  function ListAll(s: Store, xs: seq<Article>): seq<ListedArticle> {
    seq(|xs|, i requires 0 <= i < |xs| => Listed(s, xs[i]))
  }

  /** selectArticles: validate `sort_by`, then `order`, before touching the
      store; list the (topic-filtered) articles in the requested order; and
      when a topic is given, reject unless a topic row has that slug. */
  function SelectArticles(s: Store, sortBy: Option<string>, order: Option<string>, topic: Option<string>)
    : (r: Result<seq<ListedArticle>>)
    ensures sortBy.GetOr(DEFAULT_SORT_BY) !in VALID_SORT_COLUMNS ==> r == Fail(INVALID_SORT_BY)
    ensures sortBy.GetOr(DEFAULT_SORT_BY) in VALID_SORT_COLUMNS && order.GetOr(DEFAULT_ORDER) !in VALID_ORDERS
            ==> r == Fail(INVALID_ORDER)
    ensures r.Ok? ==> |r.value| <= |s.articles|
    ensures r.Ok? && FiltersOnTopic(topic) ==> forall row :: row in r.value ==> row.topic == topic.value
    ensures sortBy.GetOr(DEFAULT_SORT_BY) in VALID_SORT_COLUMNS && order.GetOr(DEFAULT_ORDER) in VALID_ORDERS
            && FiltersOnTopic(topic) && NUL in topic.value
            ==> r == Fail(Pg(CHARACTER_NOT_IN_REPERTOIRE))
  {
    var column := sortBy.GetOr(DEFAULT_SORT_BY);
    var direction := order.GetOr(DEFAULT_ORDER);
    if column !in VALID_SORT_COLUMNS then Fail(INVALID_SORT_BY)
    else if direction !in VALID_ORDERS then Fail(INVALID_ORDER)
    else
      var sorted := SortBy(Candidates(s, topic), SortKeyOf(s, column), DirectionOf(direction));
      assert |sorted| == |Candidates(s, topic)| by {
        assert |multiset(sorted)| == |multiset(Candidates(s, topic))|;
      }
      ListedTopics(s, sorted, topic);
      var rows := ListAll(s, sorted);
      if FiltersOnTopic(topic) then
        // both the listing query and the guard bind the topic as `$1`
        var bound :- BindText(topic.value);
        var found :- CheckExists.CheckExists(s, Topics, "slug", topic.value);
        Ok(rows)
      else
        Ok(rows)
  }

  lemma ListedTopics(s: Store, sorted: seq<Article>, topic: Option<string>)
    requires multiset(sorted) == multiset(Candidates(s, topic))
    ensures FiltersOnTopic(topic) ==> forall row :: row in ListAll(s, sorted) ==> row.topic == topic.value
  {
    if FiltersOnTopic(topic) {
      forall row | row in ListAll(s, sorted) ensures row.topic == topic.value {
        var i :| 0 <= i < |sorted| && ListAll(s, sorted)[i] == row;
        assert sorted[i] in multiset(Candidates(s, topic));
        FilterMembers(s.articles, TopicIs(topic.value), sorted[i]);
      }
    }
  }

  /** A valid listing is the articles the filter keeps, each exactly as
      often as it is stored, arranged in the requested order, each shown
      without its body and with the number of its comments. */
  lemma ListingContents(s: Store, sortBy: Option<string>, order: Option<string>, topic: Option<string>)
    returns (arranged: seq<Article>)
    requires sortBy.GetOr(DEFAULT_SORT_BY) in VALID_SORT_COLUMNS
    requires order.GetOr(DEFAULT_ORDER) in VALID_ORDERS
    requires FiltersOnTopic(topic) ==> HasTopic(s, topic.value) && NUL !in topic.value
    ensures SelectArticles(s, sortBy, order, topic) == Ok(ListAll(s, arranged))
    ensures forall a :: multiset(arranged)[a] ==
              if !FiltersOnTopic(topic) || a.topic == topic.value then multiset(s.articles)[a] else 0
    ensures SortedBy(arranged, SortKeyOf(s, sortBy.GetOr(DEFAULT_SORT_BY)), DirectionOf(order.GetOr(DEFAULT_ORDER)))
    ensures forall i :: 0 <= i < |arranged| ==>
              ListAll(s, arranged)[i].commentCount == |Filter(s.comments, OnArticle(arranged[i].articleId))|
  {
    var column := sortBy.GetOr(DEFAULT_SORT_BY);
    var direction := order.GetOr(DEFAULT_ORDER);
    arranged := SortBy(Candidates(s, topic), SortKeyOf(s, column), DirectionOf(direction));
    if FiltersOnTopic(topic) {
      CheckExists.TopicCheck(s, topic.value);
    }
    forall i | 0 <= i < |arranged|
      ensures ListAll(s, arranged)[i].commentCount == |Filter(s.comments, OnArticle(arranged[i].articleId))|
    {
      CommentCountCountsComments(s.comments, arranged[i].articleId);
    }
  }

  /** With no topic filter (absent, or the empty string), every stored
      article is listed exactly once. */
  lemma UnfilteredListingHasEveryArticle(s: Store, sortBy: Option<string>, order: Option<string>, topic: Option<string>)
    requires sortBy.GetOr(DEFAULT_SORT_BY) in VALID_SORT_COLUMNS
    requires order.GetOr(DEFAULT_ORDER) in VALID_ORDERS
    requires !FiltersOnTopic(topic)
    ensures SelectArticles(s, sortBy, order, topic).Ok?
    ensures |SelectArticles(s, sortBy, order, topic).value| == |s.articles|
    ensures forall a :: a in s.articles ==> Listed(s, a) in SelectArticles(s, sortBy, order, topic).value
  {
    var arranged := ListingContents(s, sortBy, order, topic);
    assert multiset(arranged) == multiset(s.articles);
    assert |arranged| == |s.articles| by {
      assert |multiset(arranged)| == |multiset(s.articles)|;
    }
    forall a | a in s.articles ensures Listed(s, a) in ListAll(s, arranged) {
      assert a in multiset(arranged);
      var i :| 0 <= i < |arranged| && arranged[i] == a;
      assert ListAll(s, arranged)[i] == Listed(s, a);
    }
  }

  /** An unknown topic is a 404, never an empty list (or the encoding
      error, when the slug holds NUL). */
  lemma UnknownTopicIsNotFound(s: Store, sortBy: Option<string>, order: Option<string>, slug: string)
    requires sortBy.GetOr(DEFAULT_SORT_BY) in VALID_SORT_COLUMNS
    requires order.GetOr(DEFAULT_ORDER) in VALID_ORDERS
    requires slug != "" && !HasTopic(s, slug)
    ensures SelectArticles(s, sortBy, order, Some(slug))
            == Fail(if NUL in slug then Pg(CHARACTER_NOT_IN_REPERTOIRE) else CheckExists.NOT_FOUND)
  {
    CheckExists.TopicCheck(s, slug);
  }

  /** A known topic that no article has gives an empty list. */
  lemma TopicWithoutArticlesIsEmpty(s: Store, sortBy: Option<string>, order: Option<string>, slug: string)
    requires sortBy.GetOr(DEFAULT_SORT_BY) in VALID_SORT_COLUMNS
    requires order.GetOr(DEFAULT_ORDER) in VALID_ORDERS
    requires slug != "" && HasTopic(s, slug) && NUL !in slug
    requires forall a :: a in s.articles ==> a.topic != slug
    ensures SelectArticles(s, sortBy, order, Some(slug)) == Ok([])
  {
    var arranged := ListingContents(s, sortBy, order, Some(slug));
  }

  // ----- GET /api/articles/:article_id -------------------------------------

  /** selectArticleById: the full article row with its comment count, or
      404 "Article not found". */
  function SelectArticleById(s: Store, articleId: string): (r: Result<ArticleWithCount>)
    ensures BindInt4(articleId).Fail? ==> r == Fail(BindInt4(articleId).error)
    ensures BindInt4(articleId).Ok? ==> (r.Ok? <==> HasArticle(s, BindInt4(articleId).value))
    ensures BindInt4(articleId).Ok? && r.Fail? ==> r.error == ARTICLE_NOT_FOUND
    ensures r.Ok? ==> && r.value.article in s.articles
                      && r.value.article.articleId == BindInt4(articleId).value
                      && r.value.commentCount == |Filter(s.comments, OnArticle(r.value.article.articleId))|
  {
    var id :- BindInt4(articleId);
    var matches := Filter(s.articles, IdIs(id));
    ArticleMatches(s, id);
    CommentCountCountsComments(s.comments, id);
    if |matches| == 0 then Fail(ARTICLE_NOT_FOUND)
    else Ok(ArticleWithCount(matches[0], CommentCount(s.comments, id)))
  }

  lemma ArticleMatches(s: Store, id: int)
    ensures |Filter(s.articles, IdIs(id))| == 0 <==> !HasArticle(s, id)
    ensures forall a :: a in Filter(s.articles, IdIs(id)) <==> a in s.articles && a.articleId == id
  {
    forall a ensures a in Filter(s.articles, IdIs(id)) <==> a in s.articles && a.articleId == id {
      FilterMembers(s.articles, IdIs(id), a);
    }
    if |Filter(s.articles, IdIs(id))| != 0 {
      assert Filter(s.articles, IdIs(id))[0] in Filter(s.articles, IdIs(id));
    }
  }

  // ----- PATCH /api/articles/:article_id ------------------------------------

  /** `SET votes = votes + inc` on the rows whose id matches. */
  function AddVotes(articles: seq<Article>, id: int, inc: int): seq<Article> {
    seq(|articles|, i requires 0 <= i < |articles| =>
      if articles[i].articleId == id then articles[i].(votes := articles[i].votes + inc) else articles[i])
  }

  /** Every article with the id still has an int4 vote total after adding `inc`. */
  predicate NewTotalsFit(s: Store, id: int, inc: int) {
    forall a :: a in s.articles && a.articleId == id ==> InInt4(a.votes + inc)
  }

  /** updateArticle: add `inc_votes` to the article's votes, with no floor,
      and return the updated row; 404 "Article not found" when no row has
      the id. `inc_votes` is a JavaScript number, sent as its decimal
      numeral (a safe integer has no exponent form). Both parameters are
      int4, and so is the new total: a value outside that range aborts the
      statement with 22003. */
  function UpdateArticle(s: Store, articleId: string, incVotes: Js.SafeInt): (r: Step<Article>)
    ensures r.result.Fail? ==> r.store == s
    ensures !InInt4(incVotes) ==> r.result == Fail(Pg(NUMERIC_VALUE_OUT_OF_RANGE))
    ensures InInt4(incVotes) && BindInt4(articleId).Fail? ==> r.result == Fail(BindInt4(articleId).error)
    ensures InInt4(incVotes) && BindInt4(articleId).Ok? && !HasArticle(s, BindInt4(articleId).value)
            ==> r.result == Fail(ARTICLE_NOT_FOUND)
    ensures InInt4(incVotes) && BindInt4(articleId).Ok? && HasArticle(s, BindInt4(articleId).value)
            ==> (r.result.Ok? <==> NewTotalsFit(s, BindInt4(articleId).value, incVotes))
    ensures InInt4(incVotes) && BindInt4(articleId).Ok? && HasArticle(s, BindInt4(articleId).value)
            && !NewTotalsFit(s, BindInt4(articleId).value, incVotes)
            ==> r.result == Fail(Pg(NUMERIC_VALUE_OUT_OF_RANGE))
    ensures r.result.Ok? ==>
      && r.store.(articles := s.articles) == s
      && |r.store.articles| == |s.articles|
      && r.result.value.articleId == BindInt4(articleId).value
      && (forall i :: 0 <= i < |s.articles| && s.articles[i].articleId != r.result.value.articleId
            ==> r.store.articles[i] == s.articles[i])
      && (forall i :: 0 <= i < |s.articles| && s.articles[i].articleId == r.result.value.articleId
            ==> && r.store.articles[i].votes == s.articles[i].votes + incVotes
                && r.store.articles[i].(votes := s.articles[i].votes) == s.articles[i])
      && (exists i :: 0 <= i < |s.articles| && s.articles[i].articleId == r.result.value.articleId
            && r.result.value == r.store.articles[i])
  {
    if !InInt4(incVotes) then Step(s, Fail(Pg(NUMERIC_VALUE_OUT_OF_RANGE)))
    else
      match BindInt4(articleId)
      case Fail(e) => Step(s, Fail(e))
      case Ok(id) =>
        var hits := Filter(s.articles, IdIs(id));
        ArticleMatches(s, id);
        if |hits| == 0 then Step(s, Fail(ARTICLE_NOT_FOUND))
        else if exists a :: a in hits && !InInt4(a.votes + incVotes) then Step(s, Fail(Pg(NUMERIC_VALUE_OUT_OF_RANGE)))
        else
          var updated := AddVotes(s.articles, id, incVotes);
          var first := hits[0];
          assert first in hits;
          var i :| 0 <= i < |s.articles| && s.articles[i] == first;
          assert updated[i] == first.(votes := first.votes + incVotes);
          Step(s.(articles := updated), Ok(first.(votes := first.votes + incVotes)))
  }

  /** The vote update keeps every table constraint: only `votes` changes,
      and the new total is within int4. */
  lemma UpdateArticleKeepsWellFormed(s: Store, articleId: string, incVotes: Js.SafeInt)
    requires WellFormed(s)
    ensures WellFormed(UpdateArticle(s, articleId, incVotes).store)
  {
    var r := UpdateArticle(s, articleId, incVotes);
    if r.result.Ok? {
      var id := BindInt4(articleId).value;
      var hits := Filter(s.articles, IdIs(id));
      assert !exists a :: a in hits && !InInt4(a.votes + incVotes);
      assert r.store == s.(articles := AddVotes(s.articles, id, incVotes));
      forall a | a in s.articles && a.articleId == id ensures InInt4(a.votes + incVotes) {
        FilterMembers(s.articles, IdIs(id), a);
      }
      AddVotesKeepsWellFormed(s, id, incVotes);
    }
  }

  /** Every row after the vote update is a stored row with only its votes
      changed, and only when it has the id. */
  lemma AddVotesRow(articles: seq<Article>, id: int, inc: int, i: int)
    requires 0 <= i < |articles|
    ensures |AddVotes(articles, id, inc)| == |articles|
    ensures AddVotes(articles, id, inc)[i].(votes := articles[i].votes) == articles[i]
    ensures articles[i].articleId == id ==> AddVotes(articles, id, inc)[i].votes == articles[i].votes + inc
    ensures articles[i].articleId != id ==> AddVotes(articles, id, inc)[i] == articles[i]
  {
  }

  lemma AddVotesKeepsKeys(s: Store, id: int, inc: int)
    requires KeysUnique(s)
    ensures KeysUnique(s.(articles := AddVotes(s.articles, id, inc)))
  {
    var updated := AddVotes(s.articles, id, inc);
    forall i, j | 0 <= i < j < |updated| ensures updated[i].articleId != updated[j].articleId {
      AddVotesRow(s.articles, id, inc, i);
      AddVotesRow(s.articles, id, inc, j);
    }
  }

  lemma AddVotesKeepsReferences(s: Store, id: int, inc: int)
    requires ReferencesResolve(s)
    ensures ReferencesResolve(s.(articles := AddVotes(s.articles, id, inc)))
  {
    var s' := s.(articles := AddVotes(s.articles, id, inc));
    forall a | a in s'.articles ensures HasTopic(s', a.topic) && HasUser(s', a.author) {
      var i :| 0 <= i < |s'.articles| && s'.articles[i] == a;
      AddVotesRow(s.articles, id, inc, i);
      assert s.articles[i] in s.articles;
    }
    forall c | c in s'.comments ensures HasArticle(s', c.articleId) {
      var b :| b in s.articles && b.articleId == c.articleId;
      var i :| 0 <= i < |s.articles| && s.articles[i] == b;
      AddVotesRow(s.articles, id, inc, i);
      assert s'.articles[i] in s'.articles;
    }
  }

  lemma AddVotesKeepsSerialsAndColumns(s: Store, id: int, inc: int)
    requires SerialsIssued(s) && ColumnsFit(s)
    requires forall a :: a in s.articles && a.articleId == id ==> InInt4(a.votes + inc)
    ensures SerialsIssued(s.(articles := AddVotes(s.articles, id, inc)))
    ensures ColumnsFit(s.(articles := AddVotes(s.articles, id, inc)))
  {
    var s' := s.(articles := AddVotes(s.articles, id, inc));
    forall a | a in s'.articles
      ensures 1 <= a.articleId < s'.nextArticleId && InInt4(a.votes) && FitsUrl(a.articleImgUrl)
    {
      var i :| 0 <= i < |s'.articles| && s'.articles[i] == a;
      AddVotesRow(s.articles, id, inc, i);
      assert s.articles[i] in s.articles;
    }
  }

  lemma AddVotesKeepsWellFormed(s: Store, id: int, inc: int)
    requires WellFormed(s)
    requires forall a :: a in s.articles && a.articleId == id ==> InInt4(a.votes + inc)
    ensures WellFormed(s.(articles := AddVotes(s.articles, id, inc)))
  {
    AddVotesKeepsKeys(s, id, inc);
    AddVotesKeepsReferences(s, id, inc);
    AddVotesKeepsSerialsAndColumns(s, id, inc);
  }

  // ----- GET /api/articles/:article_id/comments ----------------------------

  function CreatedAt(): Comment -> Key {
    (c: Comment) => IntKey(c.createdAt)
  }

  /** selectCommentsByArticleId: first the existence guard on the article,
      then its comments, newest first. */
  function SelectCommentsByArticleId(s: Store, articleId: string): (r: Result<seq<Comment>>)
    ensures BindInt4(articleId).Fail? ==> r == Fail(BindInt4(articleId).error)
    ensures BindInt4(articleId).Ok? && !HasArticle(s, BindInt4(articleId).value) ==> r == Fail(CheckExists.NOT_FOUND)
    ensures BindInt4(articleId).Ok? && HasArticle(s, BindInt4(articleId).value) ==>
      && r.Ok?
      && (forall c :: multiset(r.value)[c] ==
            if c.articleId == BindInt4(articleId).value then multiset(s.comments)[c] else 0)
      && SortedBy(r.value, CreatedAt(), Desc)
  {
    CheckExists.ArticleCheck(s, articleId);
    var found :- CheckExists.CheckExists(s, Articles, "article_id", articleId);
    match BindInt4(articleId)
    case Fail(e) => Fail(e) // not reached: the guard bound the same text
    case Ok(id) => Ok(SortBy(Filter(s.comments, OnArticle(id)), CreatedAt(), Desc))
  }

  // ----- POST /api/articles/:article_id/comments ---------------------------

  /** insertComment: `INSERT INTO comments (article_id, author, body)`. A
      missing username or body is a NULL and violates `NOT NULL`; an
      unknown article or user violates a foreign key. */
  function InsertComment(s: Store, articleId: string, username: Option<string>, body: Option<string>, now: int)
    : (r: Step<Comment>)
    ensures BindInt4(articleId).Fail? ==> r == Step(s, Fail(BindInt4(articleId).error))
    ensures BindInt4(articleId).Ok? && !(NulFree(username) && NulFree(body))
            ==> r == Step(s, Fail(Pg(CHARACTER_NOT_IN_REPERTOIRE)))
    ensures BindInt4(articleId).Ok? && NulFree(username) && NulFree(body) && (username.None? || body.None?)
            ==> r.result == Fail(Pg(NOT_NULL_VIOLATION))
    ensures r.result.Fail? ==> r.store.(nextCommentId := s.nextCommentId) == s
    ensures r.result.Ok? ==>
      && r.store.comments == s.comments + [r.result.value]
      && r.store.(comments := s.comments, nextCommentId := s.nextCommentId) == s
      && r.result.value.articleId == BindInt4(articleId).value
      && r.result.value.author == username.value
      && r.result.value.body == body.value
      && r.result.value.votes == 0
      && r.result.value.createdAt == now
      && r.result.value.commentId == s.nextCommentId
    ensures WellFormed(s) && BindInt4(articleId).Ok? && username.Some? && body.Some?
            && NulFree(username) && NulFree(body) ==>
      if HasArticle(s, BindInt4(articleId).value) && HasUser(s, username.value) then r.result.Ok?
      else r.result == Fail(Pg(FOREIGN_KEY_VIOLATION))
  {
    match BindInt4(articleId)
    case Fail(e) => Step(s, Fail(e))
    case Ok(id) =>
      // `$2` and `$3` pass the encoding check before the statement runs
      if !NulFree(username) || !NulFree(body) then Step(s, Fail(Pg(CHARACTER_NOT_IN_REPERTOIRE)))
      else InsertCommentRow(s, Some(id), body, None, username, None, now)
  }

  /** A new comment's id is not the id of any existing comment. */
  lemma InsertedCommentIdIsFresh(s: Store, articleId: string, username: Option<string>, body: Option<string>, now: int)
    requires WellFormed(s)
    requires InsertComment(s, articleId, username, body, now).result.Ok?
    ensures !HasComment(s, InsertComment(s, articleId, username, body, now).result.value.commentId)
  {
  }

  lemma InsertCommentKeepsWellFormed(s: Store, articleId: string, username: Option<string>, body: Option<string>, now: int)
    requires WellFormed(s)
    ensures WellFormed(InsertComment(s, articleId, username, body, now).store)
  {
    if BindInt4(articleId).Ok? {
      InsertCommentRowKeepsWellFormed(s, Some(BindInt4(articleId).value), body, None, username, None, now);
    }
  }

  // ----- How the operations relate ------------------------------------------

  /** An article's `comment_count` is the length of its comment list. */
  lemma CountIsLengthOfCommentList(s: Store, articleId: string)
    requires SelectArticleById(s, articleId).Ok?
    ensures SelectCommentsByArticleId(s, articleId).Ok?
    ensures SelectArticleById(s, articleId).value.commentCount == |SelectCommentsByArticleId(s, articleId).value|
  {
    var id := BindInt4(articleId).value;
    var cs := SelectCommentsByArticleId(s, articleId).value;
    var selected := Filter(s.comments, OnArticle(id));
    assert multiset(cs) == multiset(selected);
    assert |cs| == |selected| by {
      assert |multiset(cs)| == |multiset(selected)|;
    }
  }

  /** The count is recomputed, never cached: posting a comment raises the
      article's count by one. */
  lemma InsertRaisesCount(s: Store, articleId: string, username: Option<string>, body: Option<string>, now: int)
    requires SelectArticleById(s, articleId).Ok?
    requires InsertComment(s, articleId, username, body, now).result.Ok?
    ensures SelectArticleById(InsertComment(s, articleId, username, body, now).store, articleId).Ok?
    ensures SelectArticleById(InsertComment(s, articleId, username, body, now).store, articleId).value.commentCount
            == SelectArticleById(s, articleId).value.commentCount + 1
  {
    var r := InsertComment(s, articleId, username, body, now);
    var id := BindInt4(articleId).value;
    var a :| a in s.articles && a.articleId == id;
    assert a in r.store.articles;
    CountAppend(s.comments, r.result.value, id);
  }

  lemma {:induction false} CountAppend(comments: seq<Comment>, c: Comment, id: int)
    ensures CommentCount(comments + [c], id) == CommentCount(comments, id) + (if c.articleId == id then 1 else 0)
    decreases |comments|
  {
    if |comments| == 0 {
      assert comments + [c] == [c];
    } else {
      assert (comments + [c])[1..] == comments[1..] + [c];
      CountAppend(comments[1..], c, id);
    }
  }

  /** After a vote update, reading the article back shows the new total and
      the same comment count. */
  lemma UpdateThenSelect(s: Store, articleId: string, incVotes: Js.SafeInt)
    requires WellFormed(s)
    requires UpdateArticle(s, articleId, incVotes).result.Ok?
    ensures SelectArticleById(UpdateArticle(s, articleId, incVotes).store, articleId)
            == Ok(ArticleWithCount(UpdateArticle(s, articleId, incVotes).result.value,
                                   SelectArticleById(s, articleId).value.commentCount))
  {
    var r := UpdateArticle(s, articleId, incVotes);
    var s' := r.store;
    var id := BindInt4(articleId).value;
    var i :| 0 <= i < |s.articles| && s.articles[i].articleId == id && r.result.value == s'.articles[i];
    assert s'.articles[i] in s'.articles;
    assert s.articles[i] in s.articles;
    var after := SelectArticleById(s', articleId).value;
    var j :| 0 <= j < |s'.articles| && s'.articles[j] == after.article;
    assert s'.articles[j].articleId == s.articles[j].articleId;
    assert j == i;
  }

  // ----- The listing as the source writes it --------------------------------

  /** The select list of the listing query, by output column name. */
  const LISTING_COLUMNS: seq<string> :=
    ["author", "title", "article_id", "topic", "created_at", "votes", "article_img_url", "comment_count"]

  /** How PostgreSQL resolves a bare name in `ORDER BY`: as an output column
      if one has that name, otherwise as an input column, which must then
      belong to exactly one of the joined tables. */
  function ResolveOrderBy(name: string): (r: Result<()>)
    ensures name in LISTING_COLUMNS ==> r.Ok?
  {
    if name in LISTING_COLUMNS then Ok(())
    else
      var inArticles := ColumnType(Articles, name).Some?;
      var inComments := ColumnType(Comments, name).Some?;
      if inArticles && inComments then Fail(Pg(AMBIGUOUS_COLUMN))
      else if inArticles || inComments then Ok(())
      else Fail(Pg(UNDEFINED_COLUMN))
  }

  /** selectArticles exactly as the query text is written: `ORDER BY body`
      names no output column, and both joined tables have a `body` column. */
  function SelectArticlesAsWritten(s: Store, sortBy: Option<string>, order: Option<string>, topic: Option<string>)
    : (r: Result<seq<ListedArticle>>)
    ensures sortBy.GetOr(DEFAULT_SORT_BY) != "body" ==> r == SelectArticles(s, sortBy, order, topic)
  {
    var column := sortBy.GetOr(DEFAULT_SORT_BY);
    var direction := order.GetOr(DEFAULT_ORDER);
    if column !in VALID_SORT_COLUMNS then Fail(INVALID_SORT_BY)
    else if direction !in VALID_ORDERS then Fail(INVALID_ORDER)
    else
      var resolved :- ResolveOrderBy(column);
      SelectArticles(s, sortBy, order, topic)
  }

  /** Sorting by `body`, a column the allow-list admits, always fails as written. */
  lemma SortByBodyFailsAsWritten(s: Store, order: Option<string>, topic: Option<string>)
    requires order.GetOr(DEFAULT_ORDER) in VALID_ORDERS
    ensures SelectArticlesAsWritten(s, Some("body"), order, topic) == Fail(Pg(AMBIGUOUS_COLUMN))
  {
    assert "body" !in LISTING_COLUMNS;
    assert Columns(Articles)[4] == ("body", Text);
    assert Columns(Comments)[2] == ("body", Text);
  }

  /** Sorting by `body` as intended: the listing comes out ordered by the
      articles' bodies. */
  lemma SortByBodyOrdersByArticleBody(s: Store, order: Option<string>)
    requires order.GetOr(DEFAULT_ORDER) in VALID_ORDERS
    ensures SelectArticles(s, Some("body"), order, None).Ok?
    ensures exists arranged: seq<Article> ::
      && SelectArticles(s, Some("body"), order, None) == Ok(ListAll(s, arranged))
      && multiset(arranged) == multiset(s.articles)
      && (forall i, j :: 0 <= i < j < |arranged| ==>
            InOrder(TextKey(arranged[i].body), TextKey(arranged[j].body), DirectionOf(order.GetOr(DEFAULT_ORDER))))
  {
    var arranged := ListingContents(s, Some("body"), order, None);
    assert multiset(arranged) == multiset(s.articles);
    forall i, j | 0 <= i < j < |arranged|
      ensures InOrder(TextKey(arranged[i].body), TextKey(arranged[j].body), DirectionOf(order.GetOr(DEFAULT_ORDER)))
    {
      assert SortKeyOf(s, "body")(arranged[i]) == TextKey(arranged[i].body);
      assert SortKeyOf(s, "body")(arranged[j]) == TextKey(arranged[j].body);
    }
  }
}

=== FILE: catalog.dfy ===
/** The tables seen generically, as a query naming a table and a column by
    identifier sees them: each row is a map from column name to value.
 */
module Catalog {
  import opened Results
  import opened Schema

  datatype Table = Users | Topics | Articles | Comments

  /** Column types as far as binding a parameter is concerned; `VARCHAR`
      and `TEXT` are both text, and `created_at` holds the model's integer
      timestamps. */
  datatype SqlType = Int4 | Text | Stamp

  datatype Value = Null | IntValue(n: int) | TextValue(s: string)

  type Row = map<string, Value>

  function Columns(t: Table): seq<(string, SqlType)> {
    match t
    case Users => [("username", Text), ("name", Text), ("avatar_url", Text)]
    case Topics => [("slug", Text), ("description", Text), ("img_url", Text)]
    case Articles =>
      [("article_id", Int4), ("title", Text), ("topic", Text), ("author", Text), ("body", Text),
       ("created_at", Stamp), ("votes", Int4), ("article_img_url", Text)]
    case Comments =>
      [("comment_id", Int4), ("article_id", Int4), ("body", Text), ("votes", Int4), ("author", Text),
       ("created_at", Stamp)]
  }

  /** The type of column `name` of `t`, if `t` has such a column. */
  function ColumnType(t: Table, name: string): (r: Option<SqlType>)
    ensures r.Some? <==> exists i :: 0 <= i < |Columns(t)| && Columns(t)[i].0 == name
  {
    Lookup(Columns(t), name)
  }

  function Lookup(columns: seq<(string, SqlType)>, name: string): (r: Option<SqlType>)
    ensures r.Some? <==> exists i :: 0 <= i < |columns| && columns[i].0 == name
    ensures r.Some? ==> exists i :: 0 <= i < |columns| && columns[i] == (name, r.value)
    decreases |columns|
  {
    if |columns| == 0 then None
    else if columns[0].0 == name then Some(columns[0].1)
    else
      var r := Lookup(columns[1..], name);
      assert forall i :: 0 < i < |columns| ==> columns[i] == columns[1..][i - 1];
      r
  }

  function Nullable(v: Option<string>): Value {
    match v
    case None => Null
    case Some(s) => TextValue(s)
  }

  function UserRow(u: User): Row {
    map["username" := TextValue(u.username), "name" := TextValue(u.name), "avatar_url" := Nullable(u.avatarUrl)]
  }

  function TopicRow(t: Topic): Row {
    map["slug" := TextValue(t.slug), "description" := TextValue(t.description), "img_url" := Nullable(t.imgUrl)]
  }

  function ArticleRow(a: Article): Row {
    map["article_id" := IntValue(a.articleId), "title" := TextValue(a.title), "topic" := TextValue(a.topic),
        "author" := TextValue(a.author), "body" := TextValue(a.body), "created_at" := IntValue(a.createdAt),
        "votes" := IntValue(a.votes), "article_img_url" := Nullable(a.articleImgUrl)]
  }

  function CommentRow(c: Comment): Row {
    map["comment_id" := IntValue(c.commentId), "article_id" := IntValue(c.articleId), "body" := TextValue(c.body),
        "votes" := IntValue(c.votes), "author" := TextValue(c.author), "created_at" := IntValue(c.createdAt)]
  }

  function RowsOf(s: Store, t: Table): (rows: seq<Row>) {
    match t
    case Users => seq(|s.users|, i requires 0 <= i < |s.users| => UserRow(s.users[i]))
    case Topics => seq(|s.topics|, i requires 0 <= i < |s.topics| => TopicRow(s.topics[i]))
    case Articles => seq(|s.articles|, i requires 0 <= i < |s.articles| => ArticleRow(s.articles[i]))
    case Comments => seq(|s.comments|, i requires 0 <= i < |s.comments| => CommentRow(s.comments[i]))
  }
}

=== FILE: check_exists.dfy ===
/** The existence guard: does at least one row of a table have the given
    value in the given column?

    The table and column are trusted identifiers chosen by the caller; the
    value is a text parameter, converted to the column's type by the
    database. The guard only reads the store: it is a function of it and
    returns no new store.
 */
module CheckExists {
  import opened Results
  import opened SqlInt
  import opened Schema
  import opened Catalog

  const NOT_FOUND := Api(404, "Resource not found")

  /** The value a text parameter binds to when compared with a column of type `ty`. */
  function Bind(ty: SqlType, text: string): (r: Result<Value>)
    ensures r.Ok? ==> r.value != Null
    ensures r.Ok? <==> NUL !in text && (ty.Int4? ==> BindInt4(text).Ok?) && (ty.Stamp? ==> ParseInteger(text).Some?)
    ensures NUL in text ==> r == Fail(Pg(CHARACTER_NOT_IN_REPERTOIRE))
  {
    var checked :- BindText(text);
    match ty
    case Text => Ok(TextValue(checked))
    case Int4 =>
      var n :- BindInt4(text);
      Ok(IntValue(n))
    case Stamp =>
      match ParseInteger(text)
      case None => Fail(Pg(INVALID_DATETIME_FORMAT))
      case Some(n) => Ok(IntValue(n))
  }

  /** Some row holds `v` in `column`. */
  predicate AnyRowHas(rows: seq<Row>, column: string, v: Value) {
    exists row :: row in rows && column in row && row[column] == v
  }

  /** Resolves with no value when some row matches, however many do;
      rejects with 404 "Resource not found" when none does. An unknown
      column or an unconvertible value is the database's error. */
  function CheckExists(s: Store, t: Table, column: string, value: string): (r: Result<()>)
    ensures ColumnType(t, column).None? ==> r == Fail(Pg(UNDEFINED_COLUMN))
    ensures r.Fail? && r.error.Api? ==> r.error == NOT_FOUND
    ensures r.Fail? && ColumnType(t, column).Some? && Bind(ColumnType(t, column).value, value).Ok? ==> r.error == NOT_FOUND
  {
    match ColumnType(t, column)
    case None => Fail(Pg(UNDEFINED_COLUMN))
    case Some(ty) =>
      var v :- Bind(ty, value);
      if AnyRowHas(RowsOf(s, t), column, v) then Ok(()) else Fail(NOT_FOUND)
  }

  /** The guard on `articles.article_id`: the parameter must bind to an int4,
      and then it succeeds exactly when an article has that id. */
  lemma ArticleCheck(s: Store, text: string)
    ensures CheckExists(s, Articles, "article_id", text) ==
      match BindInt4(text)
      case Fail(e) => Fail(e)
      case Ok(id) => if HasArticle(s, id) then Ok(()) else Fail(NOT_FOUND)
  {
    assert Columns(Articles)[0] == ("article_id", Int4);
    assert ColumnType(Articles, "article_id") == Some(Int4);
    if BindInt4(text).Ok? {
      var id := BindInt4(text).value;
      var rows := RowsOf(s, Articles);
      if HasArticle(s, id) {
        var a :| a in s.articles && a.articleId == id;
        var i :| 0 <= i < |s.articles| && s.articles[i] == a;
        assert rows[i] == ArticleRow(a) && rows[i] in rows;
        assert "article_id" in rows[i] && rows[i]["article_id"] == IntValue(id);
        assert AnyRowHas(rows, "article_id", IntValue(id));
      }
    }
  }

  /** The guard on `topics.slug`: a slug holding NUL fails the encoding
      check; otherwise it succeeds exactly when a topic has that slug. */
  lemma TopicCheck(s: Store, slug: string)
    ensures CheckExists(s, Topics, "slug", slug) ==
      if NUL in slug then Fail(Pg(CHARACTER_NOT_IN_REPERTOIRE))
      else if HasTopic(s, slug) then Ok(())
      else Fail(NOT_FOUND)
  {
    assert Columns(Topics)[0] == ("slug", Text);
    assert ColumnType(Topics, "slug") == Some(Text);
    var rows := RowsOf(s, Topics);
    if HasTopic(s, slug) {
      var t :| t in s.topics && t.slug == slug;
      var i :| 0 <= i < |s.topics| && s.topics[i] == t;
      assert rows[i] == TopicRow(t) && rows[i] in rows;
      assert "slug" in rows[i] && rows[i]["slug"] == TextValue(slug);
      assert AnyRowHas(rows, "slug", TextValue(slug));
    }
  }
}

=== FILE: decimal.dfy ===
/** Decimal numerals: the text a number is written as, and the number a
    string of digits denotes.
 */
module Decimal {

  predicate IsDigit(c: char) {
    '0' <= c <= '9'
  }

  predicate AllDigits(s: string) {
    forall i :: 0 <= i < |s| ==> IsDigit(s[i])
  }

  function DigitValue(c: char): nat
    requires IsDigit(c)
  {
    c as int - '0' as int
  }

  function DigitChar(d: nat): (c: char)
    requires d < 10
    ensures IsDigit(c) && DigitValue(c) == d
  {
    ('0' as int + d) as char
  }

  /** The number a (possibly empty) string of digits denotes. */
  function Value(s: string): nat
    requires AllDigits(s)
    decreases |s|
  {
    if |s| == 0 then 0 else Value(s[..|s| - 1]) * 10 + DigitValue(s[|s| - 1])
  }

  /** The shortest decimal numeral of `n`. */
  function Show(n: nat): (s: string)
    ensures 0 < |s|
    ensures AllDigits(s)
    decreases n
  {
    if n < 10 then [DigitChar(n)] else Show(n / 10) + [DigitChar(n % 10)]
  }

  /** A signed numeral, with a leading '-' for negative numbers. */
  function ShowInt(n: int): (s: string)
    ensures 0 < |s|
  {
    if n < 0 then "-" + Show(-n) else Show(n)
  }

  /** Reading a numeral back gives the number it was written from. */
  lemma {:induction false} ValueOfShow(n: nat)
    ensures Value(Show(n)) == n
    decreases n
  {
    if n >= 10 {
      var prefix := Show(n / 10);
      var s := prefix + [DigitChar(n % 10)];
      assert s[..|s| - 1] == prefix;
      ValueOfShow(n / 10);
    }
  }
}

=== FILE: endpoints.dfy ===
/** What a client sees when an accessor rejects: the accessors' rejections
    taken through the error chain. Route handlers are assumed to pass a
    rejection to `next` unchanged.
 */
module Endpoints {
  import opened Results
  import opened Decimal
  import opened SqlInt
  import opened Schema
  import opened ArticleQueries
  import opened ErrorChain
  import opened Js
  import CheckExists

  /** GET /api/articles/:id with an id that is not a number: 400 "Bad
      Request"; an id holding NUL fails the encoding check instead, which
      no handler knows: 500. */
  lemma NonNumericIdIsBadRequest(s: Store, articleId: string, i: int)
    requires 0 <= i < |articleId| && !IsDigit(articleId[i]) && !(i == 0 && IsSign(articleId[i]))
    ensures SelectArticleById(s, articleId).Fail?
    ensures Answer(SelectArticleById(s, articleId).error) == if NUL in articleId then INTERNAL_ERROR else BAD_REQUEST
    ensures Answer(SelectCommentsByArticleId(s, articleId).error) == if NUL in articleId then INTERNAL_ERROR else BAD_REQUEST
  {
    NonNumericRejected(articleId, i);
  }

  /** GET /api/articles/:id for a well-formed id no article has: 404 "Article not found". */
  lemma UnknownArticleIsNotFound(s: Store, id: int)
    requires InInt4(id) && !HasArticle(s, id)
    ensures SelectArticleById(s, ShowInt(id)).Fail?
    ensures Answer(SelectArticleById(s, ShowInt(id)).error) == Response(Num(404), Str("Article not found"))
    ensures Answer(SelectCommentsByArticleId(s, ShowInt(id)).error) == Response(Num(404), Str("Resource not found"))
  {
    BindShownInt(id);
  }

  /** An id written in decimal but beyond the 32-bit range is not rejected
      as bad input: the database reports 22003, which no handler knows, so
      the client gets a 500. */
  lemma OutOfRangeIdIsServerError(s: Store, id: int)
    requires !InInt4(id)
    ensures SelectArticleById(s, ShowInt(id)).Fail?
    ensures Answer(SelectArticleById(s, ShowInt(id)).error) == INTERNAL_ERROR
  {
    BindShownInt(id);
  }

  /** POST a comment without a body or username: 400 "Missing required
      field", unless the field that is there holds NUL: 500. */
  lemma MissingFieldIsBadRequest(s: Store, id: int, username: Option<string>, body: Option<string>, now: int)
    requires InInt4(id) && (username.None? || body.None?)
    ensures InsertComment(s, ShowInt(id), username, body, now).result.Fail?
    ensures Answer(InsertComment(s, ShowInt(id), username, body, now).result.error)
            == if NulFree(username) && NulFree(body) then MISSING_FIELD else INTERNAL_ERROR
  {
    BindShownInt(id);
  }

  /** POST a comment naming an unknown article or user: 404
      "Referenced entity not found", unless a field holds NUL: 500. */
  lemma UnknownReferenceIsNotFound(s: Store, id: int, username: string, body: string, now: int)
    requires WellFormed(s) && InInt4(id)
    requires !HasArticle(s, id) || !HasUser(s, username)
    ensures InsertComment(s, ShowInt(id), Some(username), Some(body), now).result.Fail?
    ensures Answer(InsertComment(s, ShowInt(id), Some(username), Some(body), now).result.error)
            == if NUL !in username && NUL !in body then REFERENCED_NOT_FOUND else INTERNAL_ERROR
  {
    BindShownInt(id);
  }

  /** POST a comment whose body holds NUL: nothing is written, not even a
      serial value drawn, and the client gets 500. */
  lemma NulInCommentIsServerError(s: Store, id: int, username: string, body: string, now: int)
    requires InInt4(id) && NUL in body
    ensures InsertComment(s, ShowInt(id), Some(username), Some(body), now).store == s
    ensures Answer(InsertComment(s, ShowInt(id), Some(username), Some(body), now).result.error) == INTERNAL_ERROR
  {
    BindShownInt(id);
  }

  /** GET /api/articles?topic=... for an unknown topic: 404 "Resource not
      found"; a topic holding NUL: 500. */
  lemma UnknownTopicAnswer(s: Store, sortBy: Option<string>, order: Option<string>, slug: string)
    requires sortBy.GetOr(DEFAULT_SORT_BY) in VALID_SORT_COLUMNS
    requires order.GetOr(DEFAULT_ORDER) in VALID_ORDERS
    requires slug != "" && !HasTopic(s, slug)
    ensures SelectArticles(s, sortBy, order, Some(slug)).Fail?
    ensures Answer(SelectArticles(s, sortBy, order, Some(slug)).error)
            == if NUL in slug then INTERNAL_ERROR else Response(Num(404), Str("Resource not found"))
  {
    UnknownTopicIsNotFound(s, sortBy, order, slug);
    AnswerByKind(CheckExists.NOT_FOUND);
    AnswerByKind(Pg(CHARACTER_NOT_IN_REPERTOIRE));
  }

  /** GET /api/articles?sort_by=body answers 500 as the query is written. */
  lemma SortByBodyAnswerAsWritten(s: Store, order: Option<string>, topic: Option<string>)
    requires order.GetOr(DEFAULT_ORDER) in VALID_ORDERS
    ensures SelectArticlesAsWritten(s, Some("body"), order, topic).Fail?
    ensures Answer(SelectArticlesAsWritten(s, Some("body"), order, topic).error) == INTERNAL_ERROR
  {
    SortByBodyFailsAsWritten(s, order, topic);
  }
}

=== FILE: error_chain.dfy ===
/** The application's fallback and error middleware, as a function from
    what happened to a request to the one response it gets.

    Express runs the error handlers in registration order: the PSQL
    handler, then the handler for structured `{status, msg}` errors, then
    the server-error handler. A handler that does not answer passes the
    error on unchanged.
 */
module ErrorChain {
  import opened Results
  import opened Js

  /** A response: its status code and the `msg` of its JSON body. */
  datatype Response = Response(status: JsValue, msg: JsValue)

  const PATH_NOT_FOUND := Response(Num(404), Str("Path not found"))
  const BAD_REQUEST := Response(Num(400), Str("Bad Request"))
  const MISSING_FIELD := Response(Num(400), Str("Missing required field"))
  const REFERENCED_NOT_FOUND := Response(Num(404), Str("Referenced entity not found"))
  const INTERNAL_ERROR := Response(Num(500), Str("Internal Server Error"))

  /** The PSQL handler: answers three SQLSTATE codes, compared with `===`. */
  function PsqlHandler(err: JsObject): Option<Response> {
    var code := Get(err, "code");
    if code == Str(INVALID_TEXT_REPRESENTATION) then Some(BAD_REQUEST)
    else if code == Str(NOT_NULL_VIOLATION) then Some(MISSING_FIELD)
    else if code == Str(FOREIGN_KEY_VIOLATION) then Some(REFERENCED_NOT_FOUND)
    else None
  }

  /** The structured-error handler: `if (err.status && err.msg)`. */
  function StatusHandler(err: JsObject): Option<Response> {
    if Truthy(Get(err, "status")) && Truthy(Get(err, "msg")) then Some(Response(Get(err, "status"), Get(err, "msg")))
    else None
  }

  /** The error chain. Whatever is thrown gets exactly one answer; it
      never carries a falsy status or message, and its message is one of
      the fixed texts or the error's own `msg`, so nothing else about the
      error (its stack, its database detail) reaches the client. */
  function HandleError(err: JsObject): (r: Response)
    ensures Truthy(r.status) && Truthy(r.msg)
    ensures r in {BAD_REQUEST, MISSING_FIELD, REFERENCED_NOT_FOUND, INTERNAL_ERROR}
            || (r.status == Get(err, "status") && r.msg == Get(err, "msg"))
    ensures Get(err, "code") == Str(INVALID_TEXT_REPRESENTATION) ==> r == BAD_REQUEST
    ensures Get(err, "code") == Str(NOT_NULL_VIOLATION) ==> r == MISSING_FIELD
    ensures Get(err, "code") == Str(FOREIGN_KEY_VIOLATION) ==> r == REFERENCED_NOT_FOUND
  {
    match PsqlHandler(err)
    case Some(response) => response
    case None =>
      match StatusHandler(err)
      case Some(response) => response
      case None => INTERNAL_ERROR
  }

  /** The three SQLSTATE codes the PSQL handler knows. */
  predicate KnownCode(err: JsObject) {
    Get(err, "code") in {Str(INVALID_TEXT_REPRESENTATION), Str(NOT_NULL_VIOLATION), Str(FOREIGN_KEY_VIOLATION)}
  }

  /** When no known code is present, a truthy status and msg are echoed
      back exactly, and anything else (a zero status, an empty or missing
      message) is a 500 with the generic message. */
  lemma UnknownCodeResponse(err: JsObject)
    requires !KnownCode(err)
    ensures Truthy(Get(err, "status")) && Truthy(Get(err, "msg"))
            ==> HandleError(err) == Response(Get(err, "status"), Get(err, "msg"))
    ensures !(Truthy(Get(err, "status")) && Truthy(Get(err, "msg"))) ==> HandleError(err) == INTERNAL_ERROR
  {
  }

  /** The response depends on the error's `code`, `status` and `msg` only. */
  lemma ResponseDependsOnThreeFields(err: JsObject, other: JsObject)
    requires Get(err, "code") == Get(other, "code")
    requires Get(err, "status") == Get(other, "status")
    requires Get(err, "msg") == Get(other, "msg")
    ensures HandleError(err) == HandleError(other)
  {
  }

  /** The error object a rejection carries: a structured error has `status`
      and `msg`; a database error has a `code` (and a `message`, which no
      handler reads). */
  function ToJs(e: Error): (o: JsObject)
    ensures e.Api? ==> Get(o, "status") == Num(e.status) && Get(o, "msg") == Str(e.msg) && Get(o, "code") == Undefined
    ensures e.Pg? ==> Get(o, "code") == Str(e.code) && Get(o, "status") == Undefined && Get(o, "msg") == Undefined
  {
    match e
    case Api(status, msg) => map["status" := Num(status), "msg" := Str(msg)]
    case Pg(code) => map["code" := Str(code), "message" := Str("database error " + code)]
  }

  /** The answer to a rejection of the data layer. */
  function Answer(e: Error): Response {
    HandleError(ToJs(e))
  }

  /** How each kind of rejection is answered: a structured error with a
      non-zero status and a non-empty message as itself, the three known
      SQLSTATE codes by their fixed responses, and every other database
      error as a 500. */
  lemma AnswerByKind(e: Error)
    ensures e.Api? && e.status != 0 && e.msg != "" ==> Answer(e) == Response(Num(e.status), Str(e.msg))
    ensures e.Api? && (e.status == 0 || e.msg == "") ==> Answer(e) == INTERNAL_ERROR
    ensures e == Pg(INVALID_TEXT_REPRESENTATION) ==> Answer(e) == BAD_REQUEST
    ensures e == Pg(NOT_NULL_VIOLATION) ==> Answer(e) == MISSING_FIELD
    ensures e == Pg(FOREIGN_KEY_VIOLATION) ==> Answer(e) == REFERENCED_NOT_FOUND
    ensures e.Pg? && e.code !in {INVALID_TEXT_REPRESENTATION, NOT_NULL_VIOLATION, FOREIGN_KEY_VIOLATION}
            ==> Answer(e) == INTERNAL_ERROR
  {
  }

  /** What became of a request before the error middleware. */
  datatype Outcome =
    | Answered(response: Response) // a route handler responded
    | Raised(error: JsObject)      // a route handler passed an error to next()
    | NoRoute                      // no route matched the method and path

  /** The last stage of the app: a request no route matched reaches the
      catch-all and gets 404 "Path not found"; an error goes down the
      chain; a handled request keeps its response. */
  function Finish(outcome: Outcome): (r: Response)
    ensures outcome.NoRoute? ==> r == PATH_NOT_FOUND
    ensures outcome.Raised? ==> Truthy(r.status) && Truthy(r.msg)
    ensures outcome.Answered? ==> r == outcome.response
  {
    match outcome
    case Answered(response) => response
    case Raised(error) => HandleError(error)
    case NoRoute => PATH_NOT_FOUND
  }
}

=== FILE: js.dfy ===
/** The JavaScript values the error chain and the seed helpers inspect.

    Only primitive values are modelled, and numbers only as safe integers
    (magnitude at most 2^53 - 1, where a double holds every integer
    exactly and `String(n)` is its plain decimal numeral); an object is a
    map from property names to values, with a missing property reading as
    `undefined`.
 */
module Js {
  import Decimal

  /** `Number.MAX_SAFE_INTEGER`. */
  const MAX_SAFE_INTEGER := 0x1F_FFFF_FFFF_FFFF

  /** An integer a JavaScript number holds exactly. */
  type SafeInt = n: int | -MAX_SAFE_INTEGER <= n <= MAX_SAFE_INTEGER

  datatype JsValue = Undefined | Null | Bool(b: bool) | Num(n: SafeInt) | Str(s: string)

  type JsObject = map<string, JsValue>

  /** JavaScript truthiness: `undefined`, `null`, `false`, `0` and `""` are falsy. */
  predicate Truthy(v: JsValue) {
    match v
    case Undefined => false
    case Null => false
    case Bool(b) => b
    case Num(n) => n != 0
    case Str(s) => s != ""
  }

  /** Property access `o[k]`, on own properties only (nothing is inherited). */
  function Get(o: JsObject, k: string): JsValue {
    if k in o then o[k] else Undefined
  }

  /** The property name a value turns into when used as `o[v]` (ToPropertyKey).
      A safe integer is below 10^21, so it is written in plain decimal,
      without exponent. */
  function ToPropertyKey(v: JsValue): string {
    match v
    case Undefined => "undefined"
    case Null => "null"
    case Bool(b) => if b then "true" else "false"
    case Num(n) => Decimal.ShowInt(n)
    case Str(s) => s
  }
}

=== FILE: ordering.dfy ===
/** `ORDER BY <column> ASC|DESC` over rows held as a sequence.

    A sort key is either an integer or a text value; text compares
    character by character (the "C" collation). Rows with equal keys may
    come out in either order, as SQL leaves ties unspecified; the sort used
    here happens to keep their input order.
 */
module Ordering {

  datatype Key = IntKey(n: int) | TextKey(s: string)

  datatype Direction = Asc | Desc

  /** Lexicographic order on strings: a proper prefix comes first. */
  predicate LexLe(a: string, b: string)
    decreases |a|
  {
    |a| == 0 || (0 < |b| && (a[0] < b[0] || (a[0] == b[0] && LexLe(a[1..], b[1..]))))
  }

  lemma {:induction false} LexLeTotal(a: string, b: string)
    ensures LexLe(a, b) || LexLe(b, a)
    decreases |a|
  {
    if 0 < |a| && 0 < |b| && a[0] == b[0] {
      LexLeTotal(a[1..], b[1..]);
    }
  }

  lemma {:induction false} LexLeTransitive(a: string, b: string, c: string)
    requires LexLe(a, b) && LexLe(b, c)
    ensures LexLe(a, c)
    decreases |a|
  {
    if 0 < |a| && 0 < |b| && 0 < |c| && a[0] == b[0] && b[0] == c[0] {
      LexLeTransitive(a[1..], b[1..], c[1..]);
    }
  }

  /** Keys of one column are all of one kind; integers are put before text
      only so that the order is total. */
  predicate KeyLe(a: Key, b: Key) {
    match (a, b)
    case (IntKey(x), IntKey(y)) => x <= y
    case (TextKey(x), TextKey(y)) => LexLe(x, y)
    case (IntKey(_), TextKey(_)) => true
    case (TextKey(_), IntKey(_)) => false
  }

  /** `a` may be listed before `b` under the given direction. */
  predicate InOrder(a: Key, b: Key, dir: Direction) {
    match dir
    case Asc => KeyLe(a, b)
    case Desc => KeyLe(b, a)
  }

  lemma InOrderTotal(a: Key, b: Key, dir: Direction)
    ensures InOrder(a, b, dir) || InOrder(b, a, dir)
  {
    if a.TextKey? && b.TextKey? {
      LexLeTotal(a.s, b.s);
    }
  }

  lemma InOrderTransitive(a: Key, b: Key, c: Key, dir: Direction)
    requires InOrder(a, b, dir) && InOrder(b, c, dir)
    ensures InOrder(a, c, dir)
  {
    if a.TextKey? && b.TextKey? && c.TextKey? {
      if dir == Asc {
        LexLeTransitive(a.s, b.s, c.s);
      } else {
        LexLeTransitive(c.s, b.s, a.s);
      }
    }
  }

  /** Every earlier row may precede every later one. */
  predicate SortedBy<T>(xs: seq<T>, key: T -> Key, dir: Direction) {
    forall i, j :: 0 <= i < j < |xs| ==> InOrder(key(xs[i]), key(xs[j]), dir)
  }

  /** `x` placed before the first row it may precede. */
  function Insert<T>(x: T, ys: seq<T>, key: T -> Key, dir: Direction): (r: seq<T>)
    ensures multiset(r) == multiset(ys) + multiset{x}
    decreases |ys|
  {
    if |ys| == 0 then [x]
    else if InOrder(key(x), key(ys[0]), dir) then [x] + ys
    else
      assert ys == [ys[0]] + ys[1..];
      [ys[0]] + Insert(x, ys[1..], key, dir)
  }

  lemma {:induction false} InsertKeepsSorted<T>(x: T, ys: seq<T>, key: T -> Key, dir: Direction)
    requires SortedBy(ys, key, dir)
    ensures SortedBy(Insert(x, ys, key, dir), key, dir)
    decreases |ys|
  {
    if |ys| == 0 {
    } else if InOrder(key(x), key(ys[0]), dir) {
      var r := [x] + ys;
      forall i, j | 0 <= i < j < |r|
        ensures InOrder(key(r[i]), key(r[j]), dir)
      {
        if i == 0 && 1 < j {
          InOrderTransitive(key(x), key(ys[0]), key(ys[j - 1]), dir);
        }
      }
    } else {
      var tail := ys[1..];
      var rest := Insert(x, tail, key, dir);
      InsertKeepsSorted(x, tail, key, dir);
      InOrderTotal(key(x), key(ys[0]), dir);
      forall j | 0 <= j < |rest|
        ensures InOrder(key(ys[0]), key(rest[j]), dir)
      {
        assert rest[j] in multiset(rest);
        if rest[j] != x {
          assert rest[j] in multiset(tail);
          var k :| 0 <= k < |tail| && tail[k] == rest[j];
          assert tail[k] == ys[k + 1];
        }
      }
      var r := [ys[0]] + rest;
      assert Insert(x, ys, key, dir) == r;
      forall i, j | 0 <= i < j < |r|
        ensures InOrder(key(r[i]), key(r[j]), dir)
      {
        assert r[j] == rest[j - 1];
        if 0 < i {
          assert r[i] == rest[i - 1];
        }
      }
    }
  }

  /** The rows of `xs` rearranged into `dir` order of their keys. */
  function SortBy<T>(xs: seq<T>, key: T -> Key, dir: Direction): (r: seq<T>)
    ensures multiset(r) == multiset(xs)
    ensures SortedBy(r, key, dir)
    decreases |xs|
  {
    if |xs| == 0 then []
    else
      var rest := SortBy(xs[1..], key, dir);
      InsertKeepsSorted(xs[0], rest, key, dir);
      assert xs == [xs[0]] + xs[1..];
      Insert(xs[0], rest, key, dir)
  }
}

=== FILE: results.dfy ===
/** The values the data layer resolves or rejects with.

    A query either resolves with a value or rejects. The rejections this
    layer produces are of two kinds: the structured `{status, msg}` objects
    the accessors build themselves, and the errors the database raises,
    identified by their SQLSTATE code (Appendix A of the PostgreSQL
    documentation).
 */
module Results {
  import Js

  datatype Option<+T> = None | Some(value: T) {

    /** The carried value, or `default` when there is none (a column default). */
    function GetOr(default: T): T {
      match this
      case Some(v) => v
      case None => default
    }
  }

  /** A rejection: a structured application error (a JavaScript object,
      whose `status` is a number) or a database error. */
  datatype Error = Api(status: Js.SafeInt, msg: string) | Pg(code: string)

  /** The settled state of a promise. */
  datatype Result<+T> = Ok(value: T) | Fail(error: Error) {

    predicate IsFailure() {
      Fail?
    }

    function PropagateFailure<U>(): Result<U>
      requires Fail?
    {
      Fail(error)
    }

    function Extract(): T
      requires Ok?
    {
      value
    }
  }

  // SQLSTATE codes (Appendix A of the PostgreSQL documentation) that the
  // modelled statements can raise.
  const STRING_DATA_RIGHT_TRUNCATION := "22001"
  const NUMERIC_VALUE_OUT_OF_RANGE := "22003"
  const INVALID_DATETIME_FORMAT := "22007"
  const CHARACTER_NOT_IN_REPERTOIRE := "22021"
  const INVALID_TEXT_REPRESENTATION := "22P02"
  const NOT_NULL_VIOLATION := "23502"
  const FOREIGN_KEY_VIOLATION := "23503"
  const UNIQUE_VIOLATION := "23505"
  const AMBIGUOUS_COLUMN := "42702"
  const UNDEFINED_COLUMN := "42703"
}

=== FILE: schema.dfy ===
/** The four tables and the constraints their definitions declare.

    The relational store is an immutable value: one sequence of rows per
    table, plus the next value of each `SERIAL` column's sequence. Columns
    declared `NOT NULL` hold plain values, and so do the nullable `votes`
    and `created_at` columns, which the inserts modelled here always fill
    from their defaults or a given value; the other nullable columns hold
    `Option`.
    `WellFormed` collects the keys, foreign keys and column limits the
    tables declare, and the row inserts below enforce them the way the
    database does, so every insert keeps a well-formed store well-formed.
 */
module Schema {
  import opened Results
  import opened SqlInt

  /** `VARCHAR(1000)`: the declared length of the URL columns. */
  const URL_LIMIT := 1000

  datatype User = User(username: string, name: string, avatarUrl: Option<string>)

  datatype Topic = Topic(slug: string, description: string, imgUrl: Option<string>)

  datatype Article = Article(
    articleId: int,
    title: string,
    topic: string,
    author: string,
    body: string,
    createdAt: int,
    votes: int,
    articleImgUrl: Option<string>)

  datatype Comment = Comment(
    commentId: int,
    articleId: int,
    body: string,
    votes: int,
    author: string,
    createdAt: int)

  datatype Store = Store(
    users: seq<User>,
    topics: seq<Topic>,
    articles: seq<Article>,
    comments: seq<Comment>,
    nextArticleId: int,
    nextCommentId: int)

  /** A statement that may write: the store afterwards and what it settled with. */
  datatype Step<+T> = Step(store: Store, result: Result<T>)

  /** Freshly created tables; each `SERIAL` sequence starts at 1. */
  const EmptyStore := Store([], [], [], [], 1, 1)

  predicate HasUser(s: Store, username: string) {
    exists u :: u in s.users && u.username == username
  }

  predicate HasTopic(s: Store, slug: string) {
    exists t :: t in s.topics && t.slug == slug
  }

  predicate HasArticle(s: Store, articleId: int) {
    exists a :: a in s.articles && a.articleId == articleId
  }

  predicate HasComment(s: Store, commentId: int) {
    exists c :: c in s.comments && c.commentId == commentId
  }

  predicate FitsUrl(url: Option<string>) {
    url.None? || |url.value| <= URL_LIMIT
  }

  /** Assigning text to a `VARCHAR(1000)` column. A longer value is an error
      (22001) unless every character past the limit is a space; then it is
      cut to the limit and stored. */
  function StoredUrl(url: Option<string>): (r: Result<Option<string>>)
    ensures r.Ok? <==> url.None? || forall i :: URL_LIMIT <= i < |url.value| ==> url.value[i] == ' '
    ensures r.Fail? ==> r.error == Pg(STRING_DATA_RIGHT_TRUNCATION)
    ensures r.Ok? ==> FitsUrl(r.value) && r.value.Some? == url.Some?
    ensures r.Ok? && url.Some? ==>
      && r.value.value <= url.value
      && (forall i :: |r.value.value| <= i < |url.value| ==> url.value[i] == ' ')
    ensures FitsUrl(url) ==> r == Ok(url)
    ensures r.Ok? && !FitsUrl(url) ==> r.value == Some(url.value[..URL_LIMIT])
  {
    match url
    case None => Ok(None)
    case Some(text) =>
      if |text| <= URL_LIMIT then Ok(url)
      else if forall i :: URL_LIMIT <= i < |text| ==> text[i] == ' ' then Ok(Some(text[..URL_LIMIT]))
      else Fail(Pg(STRING_DATA_RIGHT_TRUNCATION))
  }

  /** Primary keys: username, slug, article_id and comment_id are unique. */
  predicate KeysUnique(s: Store) {
    && (forall i, j :: 0 <= i < j < |s.users| ==> s.users[i].username != s.users[j].username)
    && (forall i, j :: 0 <= i < j < |s.topics| ==> s.topics[i].slug != s.topics[j].slug)
    && (forall i, j :: 0 <= i < j < |s.articles| ==> s.articles[i].articleId != s.articles[j].articleId)
    && (forall i, j :: 0 <= i < j < |s.comments| ==> s.comments[i].commentId != s.comments[j].commentId)
  }

  /** Foreign keys: an article's topic and author, and a comment's article
      and author, name existing rows. */
  predicate ReferencesResolve(s: Store) {
    && (forall a :: a in s.articles ==> HasTopic(s, a.topic) && HasUser(s, a.author))
    && (forall c :: c in s.comments ==> HasArticle(s, c.articleId) && HasUser(s, c.author))
  }

  /** Serial keys were drawn from their sequences, which only move forward. */
  predicate SerialsIssued(s: Store) {
    && 1 <= s.nextArticleId
    && 1 <= s.nextCommentId
    && (forall a :: a in s.articles ==> 1 <= a.articleId < s.nextArticleId)
    && (forall c :: c in s.comments ==> 1 <= c.commentId < s.nextCommentId)
  }

  /** Column types: `INT` votes fit in 32 bits, URLs fit `VARCHAR(1000)`. */
  predicate ColumnsFit(s: Store) {
    && (forall u :: u in s.users ==> FitsUrl(u.avatarUrl))
    && (forall t :: t in s.topics ==> FitsUrl(t.imgUrl))
    && (forall a :: a in s.articles ==> InInt4(a.votes) && FitsUrl(a.articleImgUrl))
    && (forall c :: c in s.comments ==> InInt4(c.votes))
  }

  predicate WellFormed(s: Store) {
    KeysUnique(s) && ReferencesResolve(s) && SerialsIssued(s) && ColumnsFit(s)
  }

  lemma EmptyStoreWellFormed()
    ensures WellFormed(EmptyStore)
  {
  }

  /** A URL padded past the limit with one space is stored without the space. */
  lemma PaddedUrlIsCut(text: string)
    requires |text| == URL_LIMIT
    ensures StoredUrl(Some(text + " ")) == Ok(Some(text))
  {
    assert (text + " ")[..URL_LIMIT] == text;
  }

  // Row inserts. A `None` argument is a NULL (or, for a column with a
  // default, an omitted column). Values are converted first (a `VARCHAR`
  // length error), then `NOT NULL` is checked, then the primary key, then
  // the foreign keys. A `SERIAL` value is drawn before any of these checks,
  // and a sequence is never rolled back, so a failed insert still uses up
  // the id it drew.

  function InsertUserRow(s: Store, username: Option<string>, name: Option<string>, avatarUrl: Option<string>): (r: Step<User>)
    ensures r.result.Ok? <==> username.Some? && name.Some? && StoredUrl(avatarUrl).Ok? && !HasUser(s, username.value)
    ensures r.result.Ok? ==> r.store == s.(users := s.users + [r.result.value])
    ensures r.result.Ok? ==> r.result.value == User(username.value, name.value, StoredUrl(avatarUrl).value)
    ensures r.result.Fail? ==> r.store == s
  {
    match StoredUrl(avatarUrl)
    case Fail(e) => Step(s, Fail(e))
    case Ok(url) =>
      if username.None? || name.None? then Step(s, Fail(Pg(NOT_NULL_VIOLATION)))
      else if HasUser(s, username.value) then Step(s, Fail(Pg(UNIQUE_VIOLATION)))
      else
        var u := User(username.value, name.value, url);
        Step(s.(users := s.users + [u]), Ok(u))
  }

  function InsertTopicRow(s: Store, slug: Option<string>, description: Option<string>, imgUrl: Option<string>): (r: Step<Topic>)
    ensures r.result.Ok? <==> slug.Some? && description.Some? && StoredUrl(imgUrl).Ok? && !HasTopic(s, slug.value)
    ensures r.result.Ok? ==> r.store == s.(topics := s.topics + [r.result.value])
    ensures r.result.Ok? ==> r.result.value == Topic(slug.value, description.value, StoredUrl(imgUrl).value)
    ensures r.result.Fail? ==> r.store == s
  {
    match StoredUrl(imgUrl)
    case Fail(e) => Step(s, Fail(e))
    case Ok(url) =>
      if slug.None? || description.None? then Step(s, Fail(Pg(NOT_NULL_VIOLATION)))
      else if HasTopic(s, slug.value) then Step(s, Fail(Pg(UNIQUE_VIOLATION)))
      else
        var t := Topic(slug.value, description.value, url);
        Step(s.(topics := s.topics + [t]), Ok(t))
  }

  /** An article row with `article_id` from its sequence; `created_at`
      defaults to `now` and `votes` to 0 when omitted. */
  function InsertArticleRow(
    s: Store, title: Option<string>, topic: Option<string>, author: Option<string>, body: Option<string>,
    createdAt: Option<int>, votes: Option<int>, articleImgUrl: Option<string>, now: int): (r: Step<Article>)
    ensures votes.Some? && !InInt4(votes.value) ==> r == Step(s, Fail(Pg(NUMERIC_VALUE_OUT_OF_RANGE)))
    ensures r.result.Ok? <==>
      && (votes.None? || InInt4(votes.value)) && StoredUrl(articleImgUrl).Ok?
      && title.Some? && topic.Some? && author.Some? && body.Some?
      && !HasArticle(s, s.nextArticleId)
      && HasTopic(s, topic.value) && HasUser(s, author.value)
    ensures r.result.Ok? ==>
      && r.result.value == Article(s.nextArticleId, title.value, topic.value, author.value, body.value,
                                   createdAt.GetOr(now), votes.GetOr(0), StoredUrl(articleImgUrl).value)
      && r.store == s.(articles := s.articles + [r.result.value], nextArticleId := s.nextArticleId + 1)
    ensures r.result.Fail? ==> r.store.(nextArticleId := s.nextArticleId) == s
  {
    if votes.Some? && !InInt4(votes.value) then Step(s, Fail(Pg(NUMERIC_VALUE_OUT_OF_RANGE)))
    else
      var id := s.nextArticleId;
      var drawn := s.(nextArticleId := id + 1);
      match StoredUrl(articleImgUrl)
      case Fail(e) => Step(drawn, Fail(e))
      case Ok(url) =>
        if title.None? || topic.None? || author.None? || body.None? then Step(drawn, Fail(Pg(NOT_NULL_VIOLATION)))
        else if HasArticle(s, id) then Step(drawn, Fail(Pg(UNIQUE_VIOLATION)))
        else if !HasTopic(s, topic.value) || !HasUser(s, author.value) then Step(drawn, Fail(Pg(FOREIGN_KEY_VIOLATION)))
        else
          var a := Article(id, title.value, topic.value, author.value, body.value,
                           createdAt.GetOr(now), votes.GetOr(0), url);
          Step(drawn.(articles := s.articles + [a]), Ok(a))
  }

  /** A comment row with `comment_id` from its sequence; `created_at`
      defaults to `now` and `votes` to 0 when omitted. */
  function InsertCommentRow(
    s: Store, articleId: Option<int>, body: Option<string>, votes: Option<int>, author: Option<string>,
    createdAt: Option<int>, now: int): (r: Step<Comment>)
    ensures votes.Some? && !InInt4(votes.value) ==> r == Step(s, Fail(Pg(NUMERIC_VALUE_OUT_OF_RANGE)))
    ensures r.result.Ok? <==>
      && (votes.None? || InInt4(votes.value))
      && articleId.Some? && body.Some? && author.Some?
      && !HasComment(s, s.nextCommentId)
      && HasArticle(s, articleId.value) && HasUser(s, author.value)
    ensures r.result.Ok? ==>
      && r.result.value == Comment(s.nextCommentId, articleId.value, body.value, votes.GetOr(0),
                                   author.value, createdAt.GetOr(now))
      && r.store == s.(comments := s.comments + [r.result.value], nextCommentId := s.nextCommentId + 1)
    ensures r.result.Fail? ==> r.store.(nextCommentId := s.nextCommentId) == s
  {
    if votes.Some? && !InInt4(votes.value) then Step(s, Fail(Pg(NUMERIC_VALUE_OUT_OF_RANGE)))
    else
      var id := s.nextCommentId;
      var drawn := s.(nextCommentId := id + 1);
      if articleId.None? || body.None? || author.None? then Step(drawn, Fail(Pg(NOT_NULL_VIOLATION)))
      else if HasComment(s, id) then Step(drawn, Fail(Pg(UNIQUE_VIOLATION)))
      else if !HasArticle(s, articleId.value) || !HasUser(s, author.value) then Step(drawn, Fail(Pg(FOREIGN_KEY_VIOLATION)))
      else
        var c := Comment(id, articleId.value, body.value, votes.GetOr(0), author.value, createdAt.GetOr(now));
        Step(drawn.(comments := s.comments + [c]), Ok(c))
  }

  lemma InsertUserRowKeepsWellFormed(s: Store, username: Option<string>, name: Option<string>, avatarUrl: Option<string>)
    requires WellFormed(s)
    ensures WellFormed(InsertUserRow(s, username, name, avatarUrl).store)
  {
    var r := InsertUserRow(s, username, name, avatarUrl);
    if r.result.Ok? {
      var s' := r.store;
      forall a | a in s'.articles ensures HasTopic(s', a.topic) && HasUser(s', a.author) {
        assert HasUser(s, a.author);
        var u :| u in s.users && u.username == a.author;
        assert u in s'.users;
      }
      forall c | c in s'.comments ensures HasArticle(s', c.articleId) && HasUser(s', c.author) {
        assert HasUser(s, c.author);
        var u :| u in s.users && u.username == c.author;
        assert u in s'.users;
      }
      forall i, j | 0 <= i < j < |s'.users| ensures s'.users[i].username != s'.users[j].username {
        if j == |s.users| {
          assert s.users[i] in s.users;
        }
      }
    }
  }

  lemma InsertTopicRowKeepsWellFormed(s: Store, slug: Option<string>, description: Option<string>, imgUrl: Option<string>)
    requires WellFormed(s)
    ensures WellFormed(InsertTopicRow(s, slug, description, imgUrl).store)
  {
    var r := InsertTopicRow(s, slug, description, imgUrl);
    if r.result.Ok? {
      var s' := r.store;
      forall a | a in s'.articles ensures HasTopic(s', a.topic) && HasUser(s', a.author) {
        assert HasTopic(s, a.topic);
        var t :| t in s.topics && t.slug == a.topic;
        assert t in s'.topics;
      }
      forall i, j | 0 <= i < j < |s'.topics| ensures s'.topics[i].slug != s'.topics[j].slug {
        if j == |s.topics| {
          assert s.topics[i] in s.topics;
        }
      }
    }
  }

  lemma InsertArticleRowKeepsWellFormed(
    s: Store, title: Option<string>, topic: Option<string>, author: Option<string>, body: Option<string>,
    createdAt: Option<int>, votes: Option<int>, articleImgUrl: Option<string>, now: int)
    requires WellFormed(s)
    ensures WellFormed(InsertArticleRow(s, title, topic, author, body, createdAt, votes, articleImgUrl, now).store)
  {
    var r := InsertArticleRow(s, title, topic, author, body, createdAt, votes, articleImgUrl, now);
    if r.result.Ok? {
      var s' := r.store;
      var a := r.result.value;
      forall c | c in s'.comments ensures HasArticle(s', c.articleId) && HasUser(s', c.author) {
        assert HasArticle(s, c.articleId);
        var b :| b in s.articles && b.articleId == c.articleId;
        assert b in s'.articles;
      }
      forall i, j | 0 <= i < j < |s'.articles| ensures s'.articles[i].articleId != s'.articles[j].articleId {
        if j == |s.articles| {
          assert s.articles[i] in s.articles;
        }
      }
    } else {
      assert r.store.users == s.users && r.store.topics == s.topics;
      assert r.store.articles == s.articles && r.store.comments == s.comments;
    }
  }

  lemma InsertCommentRowKeepsWellFormed(
    s: Store, articleId: Option<int>, body: Option<string>, votes: Option<int>, author: Option<string>,
    createdAt: Option<int>, now: int)
    requires WellFormed(s)
    ensures WellFormed(InsertCommentRow(s, articleId, body, votes, author, createdAt, now).store)
  {
    var r := InsertCommentRow(s, articleId, body, votes, author, createdAt, now);
    if r.result.Ok? {
      var s' := r.store;
      forall i, j | 0 <= i < j < |s'.comments| ensures s'.comments[i].commentId != s'.comments[j].commentId {
        if j == |s.comments| {
          assert s.comments[i] in s.comments;
        }
      }
    } else {
      assert r.store.users == s.users && r.store.topics == s.topics;
      assert r.store.articles == s.articles && r.store.comments == s.comments;
    }
  }
}

=== FILE: seed_utils.dfy ===
/** The pure helpers used to shape seed data before it is inserted. */
module SeedUtils {
  import opened Js

  /** mapToNestedArray: one row per object, in order, holding the object's
      values of the given properties in the given order (`undefined` for a
      missing one). The objects are values, so the input cannot change. */
  method MapToNestedArray(objects: seq<JsObject>, properties: seq<string>) returns (rows: seq<seq<JsValue>>)
    ensures |rows| == |objects|
    ensures forall i :: 0 <= i < |rows| ==> |rows[i]| == |properties|
    ensures forall i, j :: 0 <= i < |rows| && 0 <= j < |properties| ==> rows[i][j] == Get(objects[i], properties[j])
  {
    rows := [];
    var i := 0;
    while i < |objects|
      invariant 0 <= i <= |objects|
      invariant |rows| == i
      invariant forall k :: 0 <= k < i ==> |rows[k]| == |properties|
      invariant forall k, j :: 0 <= k < i && 0 <= j < |properties| ==> rows[k][j] == Get(objects[k], properties[j])
    {
      var row: seq<JsValue> := [];
      var j := 0;
      while j < |properties|
        invariant 0 <= j <= |properties|
        invariant |row| == j
        invariant forall m :: 0 <= m < j ==> row[m] == Get(objects[i], properties[m])
      {
        row := row + [Get(objects[i], properties[j])];
        j := j + 1;
      }
      rows := rows + [row];
      i := i + 1;
    }
  }

  /** convertDateToISOString: drop `created_at` when it is falsy, otherwise
      replace it by its converted value; every other property is kept as
      it is. The date conversion itself is a parameter. */
  function ConvertDateToIsoString(o: JsObject, toIsoString: JsValue -> JsValue): (r: JsObject)
    ensures "created_at" in r <==> Truthy(Get(o, "created_at"))
    ensures "created_at" in r ==> r["created_at"] == toIsoString(o["created_at"])
    ensures forall k :: k != "created_at" ==> (k in r <==> k in o)
    ensures forall k :: k in r && k != "created_at" ==> r[k] == o[k]
  {
    var createdAt := Get(o, "created_at");
    var others := o - {"created_at"};
    if !Truthy(createdAt) then others else others["created_at" := toIsoString(createdAt)]
  }

  /** The property name an object is filed under. */
  function KeyOf(o: JsObject, key: string): string {
    ToPropertyKey(Get(o, key))
  }

  /** `lookup[k] = v` on a plain object: assigning to `__proto__` runs the
      inherited setter and creates no property of its own. */
  function Assign(lookup: JsObject, k: string, v: JsValue): JsObject {
    if k == "__proto__" then lookup else lookup[k := v]
  }

  /** Some object has key `k` and value `v`. */
  predicate FiledFrom(objects: seq<JsObject>, key: string, value: string, k: string, v: JsValue) {
    exists i :: 0 <= i < |objects| && KeyOf(objects[i], key) == k && Get(objects[i], value) == v
  }

  /** createLookupMap: `reduce` from the left over the objects, filing each
      object's `value` property under its `key` property. */
  function CreateLookupMap(objects: seq<JsObject>, key: string, value: string): (r: JsObject)
    ensures "__proto__" !in r
    ensures forall k :: k in r ==> FiledFrom(objects, key, value, k, r[k])
    decreases |objects|
  {
    if |objects| == 0 then map[]
    else
      var last := objects[|objects| - 1];
      Assign(CreateLookupMap(objects[..|objects| - 1], key, value), KeyOf(last, key), Get(last, value))
  }

  /** The keys of the lookup are exactly the objects' keys (bar `__proto__`). */
  lemma {:induction false} LookupKeys(objects: seq<JsObject>, key: string, value: string)
    ensures CreateLookupMap(objects, key, value).Keys
            == (set i | 0 <= i < |objects| :: KeyOf(objects[i], key)) - {"__proto__"}
    decreases |objects|
  {
    if |objects| != 0 {
      var n := |objects| - 1;
      var prefix := objects[..n];
      LookupKeys(prefix, key, value);
      var all := set i | 0 <= i < |objects| :: KeyOf(objects[i], key);
      var before := set i | 0 <= i < n :: KeyOf(prefix[i], key);
      assert all == before + {KeyOf(objects[n], key)} by {
        forall k | k in all ensures k in before + {KeyOf(objects[n], key)} {
          var i :| 0 <= i < |objects| && KeyOf(objects[i], key) == k;
          if i < n {
            assert prefix[i] == objects[i];
          }
        }
        forall k | k in before ensures k in all {
          var i :| 0 <= i < n && KeyOf(prefix[i], key) == k;
          assert prefix[i] == objects[i];
        }
      }
    }
  }

  /** The value filed under a key is that of the last object with that key. */
  lemma {:induction false} LookupLastWins(objects: seq<JsObject>, key: string, value: string, i: int)
    requires 0 <= i < |objects|
    requires KeyOf(objects[i], key) != "__proto__"
    requires forall j :: i < j < |objects| ==> KeyOf(objects[j], key) != KeyOf(objects[i], key)
    ensures KeyOf(objects[i], key) in CreateLookupMap(objects, key, value)
    ensures CreateLookupMap(objects, key, value)[KeyOf(objects[i], key)] == Get(objects[i], value)
    decreases |objects|
  {
    var n := |objects| - 1;
    var prefix := objects[..n];
    var before := CreateLookupMap(prefix, key, value);
    assert CreateLookupMap(objects, key, value) == Assign(before, KeyOf(objects[n], key), Get(objects[n], value));
    if i < n {
      assert prefix[i] == objects[i];
      forall j | i < j < |prefix| ensures KeyOf(prefix[j], key) != KeyOf(prefix[i], key) {
        assert prefix[j] == objects[j];
      }
      LookupLastWins(prefix, key, value, i);
      assert KeyOf(objects[n], key) != KeyOf(objects[i], key);
    }
  }
}

=== FILE: seqs.dfy ===
/** Selecting the rows of a table that satisfy a `WHERE` condition. */
module Seqs {

  /** The elements of `xs` that satisfy `p`, in their original order; every
      element keeps its multiplicity when selected and disappears otherwise. */
  function Filter<T(!new)>(xs: seq<T>, p: T -> bool): (r: seq<T>)
    ensures |r| <= |xs|
    ensures forall x :: multiset(r)[x] == if p(x) then multiset(xs)[x] else 0
    decreases |xs|
  {
    if |xs| == 0 then []
    else
      var rest := Filter(xs[1..], p);
      assert xs == [xs[0]] + xs[1..];
      if p(xs[0]) then [xs[0]] + rest else rest
  }

  lemma FilterMembers<T(!new)>(xs: seq<T>, p: T -> bool, x: T)
    ensures x in Filter(xs, p) <==> x in xs && p(x)
  {
    assert x in Filter(xs, p) <==> multiset(Filter(xs, p))[x] > 0;
    assert x in xs <==> multiset(xs)[x] > 0;
  }
}

=== FILE: sql_int.dfy ===
/** How PostgreSQL binds a text parameter.

    Every text parameter is first checked against the database encoding,
    before the type's input function sees it. UTF-8 text may not hold the
    NUL character, so a parameter containing one is rejected with SQLSTATE
    22021 (character_not_in_repertoire).

    Route parameters reach the accessors as text and are compared with or
    stored into `INT`/`SERIAL` columns, so the database converts them: text
    that is not an integer literal is rejected with 22P02
    (invalid_text_representation), and a literal outside the 32-bit range
    with 22003 (numeric_value_out_of_range).
 */
module SqlInt {
  import opened Results
  import opened Decimal

  const INT4_MIN: int := -0x8000_0000
  const INT4_MAX: int := 0x7FFF_FFFF

  predicate InInt4(n: int) {
    INT4_MIN <= n <= INT4_MAX
  }

  predicate IsSign(c: char) {
    c == '-' || c == '+'
  }

  /** The character no text value of the database can hold. */
  const NUL: char := '\0'

  /** The encoding check every text parameter passes through first. */
  function BindText(text: string): (r: Result<string>)
    ensures r.Ok? <==> NUL !in text
    ensures r.Ok? ==> r.value == text
    ensures r.Fail? ==> r.error == Pg(CHARACTER_NOT_IN_REPERTOIRE)
  {
    if NUL in text then Fail(Pg(CHARACTER_NOT_IN_REPERTOIRE)) else Ok(text)
  }

  /** An absent (NULL) parameter, or text that passes the encoding check. */
  predicate NulFree(param: Option<string>) {
    param.None? || NUL !in param.value
  }

  /** An optionally signed decimal literal, read as an unbounded integer. */
  function ParseInteger(s: string): Option<int> {
    if 2 <= |s| && IsSign(s[0]) && AllDigits(s[1..]) then
      var magnitude: int := Value(s[1..]);
      Some(if s[0] == '-' then -magnitude else magnitude)
    else if 1 <= |s| && AllDigits(s) then
      Some(Value(s))
    else
      None
  }

  /** The int4 value a text parameter binds to. */
  function BindInt4(text: string): (r: Result<int>)
    ensures r.Ok? ==> InInt4(r.value)
    ensures NUL in text ==> r == Fail(Pg(CHARACTER_NOT_IN_REPERTOIRE))
    ensures r.Fail? ==> r.error in {Pg(CHARACTER_NOT_IN_REPERTOIRE), Pg(INVALID_TEXT_REPRESENTATION), Pg(NUMERIC_VALUE_OUT_OF_RANGE)}
  {
    var checked :- BindText(text);
    match ParseInteger(checked)
    case None => Fail(Pg(INVALID_TEXT_REPRESENTATION))
    case Some(n) => if InInt4(n) then Ok(n) else Fail(Pg(NUMERIC_VALUE_OUT_OF_RANGE))
  }

  /** Every integer written in decimal binds to itself when it fits in
      32 bits, and is rejected as out of range otherwise. */
  lemma BindShownInt(n: int)
    ensures BindInt4(ShowInt(n)) == if InInt4(n) then Ok(n) else Fail(Pg(NUMERIC_VALUE_OUT_OF_RANGE))
  {
    var m := if n < 0 then -n else n;
    ValueOfShow(m);
    var digits := Show(m);
    if n < 0 {
      var s := "-" + digits;
      assert s[1..] == digits;
      assert ParseInteger(s) == Some(n);
    } else {
      assert digits[0] != '-' && digits[0] != '+' by { assert IsDigit(digits[0]); }
      assert ParseInteger(digits) == Some(n);
    }
  }

  /** A parameter holding a character that is neither a digit nor a
      leading sign is never an integer: it is rejected with 22P02, or with
      22021 when the encoding check already fails on a NUL. */
  lemma NonNumericRejected(text: string, i: int)
    requires 0 <= i < |text| && !IsDigit(text[i]) && !(i == 0 && IsSign(text[i]))
    ensures BindInt4(text) == Fail(Pg(if NUL in text then CHARACTER_NOT_IN_REPERTOIRE else INVALID_TEXT_REPRESENTATION))
  {
    if 2 <= |text| && IsSign(text[0]) {
      assert text[1..][i - 1] == text[i];
    }
  }
}
